=== FILE: README.md ===
# oopLabs core, modelled in Dafny

Four small Python components from a set of object-oriented programming labs,
each modelled as immutable state records threaded through pure functions.

- **Keyboard processor with undo/redo and snapshots** (`lab6`). The processor has
  - four commands (type a key, volume up, volume down, start the media player) that act on three process-wide globals (`text`, `volume`, `media_player`);
  - a key-binding table;
  - back and forward history stacks;
  - `press`, `undo` and `redo`;
  - `get_state` / `set_state`, which store the whole keyboard as a record. In that record each binding is a class name plus its constructor arguments, and each history is its key sequence.

  Files:
  - `commands.dfy` (module `Commands`);
  - `bindings.dfy` (`Bindings`): the binding table is an insertion-ordered dictionary, kept as a sequence of entries with unique keys;
  - `keyboard.dfy` (`Keyboard`);
  - `keyboard_traces.dfy` (`KeyboardTraces`): properties of whole key sequences;
  - `snapshot.dfy` (`Snapshot`).
- **Validated property setters with observers** (`lab4`), in `observable.dfy` (`Observable`).
  - A `Film` has title, year and rating setters. A setter commits only when every "changing" listener accepts, and then notifies every "changed" listener.
  - There are three stock validators and the listener-list operations.
- **Dependency-injection container** (`lab7`), in `injector.dfy` (`Injector`).
  - The container has registrations, a singleton cache, a scoped cache and a scope flag.
  - Building an object is abstracted to issuing a fresh handle.
  - A request ends in `Done` or `Raised`, each carrying the container left behind: caches filled before an exception stay filled, as in Python.
- **User repository and authentication** (`lab5`), in `users.dfy` (`Users`) and `auth.dfy` (`Auth`).
  - The JSON store is the sequence of records it holds.
  - The session file is the user id it contains.

`wrappers.dfy` holds the shared `Option` and `Result` types.

Where the source raises, the model returns a `Failure` or leaves the error as an explicit outcome.
- Undo or redo on an empty history, in `lab6`, raises `IndexError`. The code logs "History empty" and then pops anyway.
- A second example is `delete` in `lab5`.

The log message shows the authors meant an empty history to be reported and left alone, so that no-op is the corrected half of a finding; the model's `Press` follows the code and raises.

## Model

| member | source | states |
|---|---|---|
| Commands.DropLast | lab6/lab6.py:35-38 | `text[:-1]` removes exactly the last character and keeps the empty string empty |
| Commands.Exec | lab6/lab6.py:26-91 | a key command appends its characters; the volume commands move the volume by exactly their amount, up or down; the media command turns the player on; each command touches only its own global |
| Commands.Undo | lab6/lab6.py:26-91 | a key command's undo drops one character whatever the key's length; the volume undos move back by the amount; the media undo turns the player off whatever it was before |
| Commands.Redo | lab6/lab6.py:40-91 | every command's redo is its exec again, so an undo after a redo restores the globals for every reversible command |
| Commands.ExecUndoRestores | lab6/lab6.py:30-72 | undo after exec restores all three globals for one-character key commands and both volume commands |
| Commands.ExecUndoIdentityIff | lab6/lab6.py:26-91 | undo after exec is the identity exactly for reversible commands, a media command started with the player off, or an empty key command on an empty buffer |
| Commands.ExecUndoRedo | lab6/lab6.py:40-91 | redo, which re-runs exec, after exec and undo lands back on the executed state for every command a press can create |
| Bindings.Lookup | lab6/lab6.py:147 | dictionary lookup distinguishes an absent key from one bound to `None`, and a found value is stored under that key |
| Bindings.Bind | lab6/lab6.py:131-132 | after `key_binds[k] = c`, `k` maps to `c` and every other key maps to what it did; an existing key keeps its position and a new key goes last |
| Bindings.BindKeepsUnique | lab6/lab6.py:131-132 | assignment never stores a key twice |
| Keyboard.Bound | lab6/lab6.py:147 | `key_binds.get(k)` yields a command exactly when `k` is bound to one |
| Keyboard.Resolve | lab6/lab6.py:147-151 | the command a press runs is the binding, else a fresh key command for a one-character key; there is none only for an unbound multi-character key |
| Keyboard.KeyBind | lab6/lab6.py:131-132 | `key_bind` rebinds one key, keeps an existing key in its place and puts a new key last, and leaves the globals, the histories and every other binding alone |
| Keyboard.Dispatch | lab6/lab6.py:151-154 | running a resolved command applies its exec, pushes `(key, command)` on the back history, empties the forward history and leaves the bindings alone |
| Keyboard.DispatchThenUndo | lab6/lab6.py:151-167 | an undo right after a press pops exactly the pushed entry onto the forward history, and for a reversible command restores the globals |
| Keyboard.UndoStep | lab6/lab6.py:160-167 | undo raises on an empty back history; otherwise it pops the top entry, applies its undo and pushes it on the forward history, with the bindings untouched |
| Keyboard.RedoStep | lab6/lab6.py:169-176 | redo raises on an empty forward history; otherwise it pops, re-executes and pushes the entry on the back history |
| Keyboard.UndoOrKeep | lab6/lab6.py:160-167 | the intended undo: no change on an empty back history, otherwise exactly the undo step |
| Keyboard.RedoOrKeep | lab6/lab6.py:169-176 | the intended redo: no change on an empty forward history, otherwise exactly the redo step |
| Keyboard.Press | lab6/lab6.py:141-158 | "undo" and "redo" route to the steps; a resolvable key runs its command, pushes `(key, command)`, clears the forward history and leaves the key bound to that command; a bound key leaves the table exactly as it was, and an auto-bound key goes last; an unknown key changes nothing and returns its message |
| Keyboard.PressKeepsUnique | lab6/lab6.py:147-150 | a press, including its automatic binding, keeps the binding table free of duplicate keys |
| Keyboard.EmptyHistoryRaises | lab6/lab6.py:160-176 | on empty histories, undo and redo raise as written, while the intended versions leave the keyboard unchanged |
| Keyboard.UnknownKeyScenario | lab6/lab6.py:147-158 | pressing the unbound key "ctrl+z" returns "Unknown key: ctrl+z" with the keyboard unchanged |
| KeyboardTraces.ExecAllOverMedia | lab6/lab6.py:80-83 | a run of commands forces the media flag on exactly when it contains a media command |
| KeyboardTraces.UndoAllOverMedia | lab6/lab6.py:85-88 | undoing a run of commands forces the media flag off exactly when it contains a media command |
| KeyboardTraces.UndoAllExecAll | lab6/lab6.py:26-91 | undoing, last first, the commands just executed restores text and volume exactly; the media flag is off if any of them started the player |
| KeyboardTraces.UndoTimes | lab6/lab6.py:160-167 | N undos move the top N back entries to the forward history in reverse order and undo their commands, last first |
| KeyboardTraces.RedoPress | lab6/lab6.py:169-176 | one redo re-executes the top forward entry and moves it to the back history, leaving the bindings alone |
| KeyboardTraces.RedoTimes | lab6/lab6.py:169-176 | N redos move the top N forward entries back, replaying them in their original order |
| KeyboardTraces.PlainPress | lab6/lab6.py:147-156 | a press of a resolvable key other than "undo" and "redo" runs its command, pushes it, clears the forward history and leaves every key resolving to the same command |
| KeyboardTraces.PressesRecord | lab6/lab6.py:147-156 | N plain presses run their commands in order, push exactly those entries, clear the forward history and resolve every key as before |
| KeyboardTraces.PressesThenUndosRun | lab6/lab6.py:141-167 | the keyboard N plain presses and then N undos reach: the back history as before, the entries reversed on the forward history |
| KeyboardTraces.PressesThenUndos | lab6/lab6.py:141-167 | N presses followed by N undos restore text, volume and the back history; media is off if any press started the player |
| KeyboardTraces.PressesThenUndosRestore | lab6/lab6.py:141-167 | with only reversible commands, N presses and N undos restore the globals exactly |
| KeyboardTraces.ExecAllAfterUndoAll | lab6/lab6.py:26-91 | re-executing commands after undoing them lands on the state their first execution reached |
| KeyboardTraces.UndosThenRedosRun | lab6/lab6.py:141-176 | the keyboard that N presses, N undos and N redos reach |
| KeyboardTraces.UndosThenRedos | lab6/lab6.py:141-176 | N presses, N undos and N redos end exactly where the N presses ended |
| KeyboardTraces.PressClearsRedo | lab6/lab6.py:151-176 | a plain press empties the forward history, so a redo right after it raises |
| KeyboardTraces.TypeAbc | lab6/lab6.py:249-251 | from a fresh keyboard, "a", "b", "c" type "abc" and leave those three entries on the back history |
| KeyboardTraces.ExecAbc | lab6/lab6.py:249-251 | the key commands for "a", "b", "c" run on an empty buffer type "abc" |
| KeyboardTraces.UndoTwice | lab6/lab6.py:252-253 | two undos after typing "abc" leave "a", with "c" then "b" on the forward history |
| KeyboardTraces.AbcUndo | lab6/lab6.py:249-253 | from a fresh keyboard, typing "abc" and two undos leave "a", with "c" then "b" waiting to be redone |
| KeyboardTraces.AbcUndoRedo | lab6/lab6.py:249-254 | one redo after that gives "ab" |
| KeyboardTraces.TypingScenario | lab6/lab6.py:249-254 | typing "abc", two undos and one redo give "abc", then "a", then "ab" |
| Snapshot.Encode | lab6/lab6.py:182-189 | a command is stored under one of the four command class names |
| Snapshot.Decode | lab6/lab6.py:208-216 | an unknown class name fails; a volume record without arguments gives that volume command with the default amount 20; any other decoded command re-encodes to its record |
| Snapshot.DecodeEncode | lab6/lab6.py:182-216 | every command decodes from its stored record to itself |
| Snapshot.HistoryKeys | lab6/lab6.py:196-197 | a history is stored as its keys, in order |
| Snapshot.DecodeTable | lab6/lab6.py:210-216 | rebuilding the bindings succeeds exactly when no stored binding is undecodable |
| Snapshot.DecodeTableStops | lab6/lab6.py:210-216 | a failed rebuild stops at an undecodable binding and keeps exactly the table that rebuilding the bindings before it produces |
| Snapshot.DecodeTableContents | lab6/lab6.py:210-216 | when every stored binding decodes and no key repeats, the rebuilt table is the earlier one followed by each stored key with its decoded command, in stored order |
| Snapshot.Rehydrate | lab6/lab6.py:218-228 | the rebuilt history's keys are exactly the stored keys that are bound to a command, in stored order; each entry runs the command now bound to its key; keys absent or bound to `None` are dropped |
| Snapshot.BoundKeysAll | lab6/lab6.py:218-228 | when every stored history key is bound to a command, the filter keeps them all |
| Snapshot.GetState | lab6/lab6.py:178-198 | the stored record holds the three globals and one item per binding and per history entry |
| Snapshot.SetState | lab6/lab6.py:200-232 | the flag is true exactly when all three globals are present and every binding decodes; the globals before the first missing field are assigned and everything else is kept; with all globals present a failed decode keeps the partly rebuilt table and the old histories; on success the bindings are the decoded table and both histories are rebuilt from the stored keys |
| Snapshot.SetStateBindings | lab6/lab6.py:200-229 | a successful `set_state` from a record with distinct stored keys holds exactly the stored bindings, decoded, in stored order |
| Snapshot.TableRoundTrip | lab6/lab6.py:181-216 | a table with distinct keys is rebuilt from its stored form exactly, positions included |
| Snapshot.SnapshotRoundTrip | lab6/lab6.py:178-228 | `set_state(get_state())` succeeds and restores the globals and every binding, rebuilding each history through the bindings |
| Snapshot.RehydrateCoherent | lab6/lab6.py:218-228 | a history whose keys are all bound to their entries' commands is rebuilt from its keys unchanged |
| Snapshot.SnapshotIdentity | lab6/lab6.py:178-228 | for a keyboard whose history entries run their keys' bindings, `set_state(get_state())` gives back the same keyboard |
| Snapshot.UndoKeepsCoherent | lab6/lab6.py:160-167 | an undo keeps every history entry running its key's binding |
| Snapshot.RedoKeepsCoherent | lab6/lab6.py:169-176 | a redo keeps every history entry running its key's binding |
| Snapshot.DispatchKeepsCoherent | lab6/lab6.py:151-154 | pushing a key with its bound command keeps the histories coherent |
| Snapshot.AutoBindKeepsCoherent | lab6/lab6.py:148-150 | binding a key that had no command leaves every history entry's command in place |
| Snapshot.PressKeepsCoherent | lab6/lab6.py:141-158 | every successful press keeps the keyboard coherent |
| Snapshot.RunKeysKeepCoherent | lab6/lab6.py:141-176 | any successful run of presses keeps the keyboard coherent |
| Snapshot.SnapshotAfterPresses | lab6/lab6.py:178-228 | after any successful run of presses from a fresh keyboard, storing and restoring the keyboard gives it back unchanged |
| Snapshot.SetStateAtomic | lab6/lab6.py:200-232 | the intended `set_state`: nothing changes unless every field is present and every binding decodes, and then the globals, bindings and histories are all replaced |
| Snapshot.AtomicAgreesOnSuccess | lab6/lab6.py:200-232 | the atomic variant reports the same flag, and on success produces the same keyboard |
| Snapshot.PartialSetState | lab6/lab6.py:203-216 | a snapshot whose binding names an unknown class makes `set_state` return false with the globals already replaced and the bindings emptied; the atomic variant changes nothing |
| Observable.Verdict | lab4/lab4.py:27-77 | the title validator accepts exactly non-empty strings, the year validator exactly integers from 1896 to the current year, the rating validator exactly integers or floats in 0..10; each passes every other property |
| Observable.AllAccept | lab4/lab4.py:152-153 | a change is allowed exactly when every changing-listener accepts it, so with no listeners always |
| Observable.Notify | lab4/lab4.py:155-156 | one notice per changed-listener with the property name, in registration order |
| Observable.Put | lab4/lab4.py:122-136 | storing a property changes only that property |
| Observable.Set | lab4/lab4.py:118-137 | an accepted value is stored and announced to every changed-listener; a refused one leaves the film unchanged and announces nothing; the other properties never change |
| Observable.SetTwice | lab4/lab4.py:37-39 | assigning the same value twice has the effect of assigning it once, since no validator's answer depends on the old value |
| Observable.NewFilm | lab4/lab4.py:95-103 | the constructor stores its three arguments unvalidated, with empty listener lists |
| Observable.RemoveFirst | lab4/lab4.py:143-144 | `list.remove` drops exactly one occurrence, the first |
| Observable.AddOnce | lab4/lab4.py:140-141 | adding a listener appends it only if absent, so a duplicate-free list stays duplicate-free |
| Observable.RemoveIfPresent | lab4/lab4.py:143-144 | an absent listener is ignored; a present one has its first occurrence cut out with the others kept in order, and from a duplicate-free list it disappears |
| Observable.AddChangedListener | lab4/lab4.py:140-141 | a new changed-listener is appended, a registered one leaves the list as it was; the changing list and the properties are untouched |
| Observable.RemoveChangedListener | lab4/lab4.py:143-144 | an absent changed-listener is ignored; a present one has its first occurrence cut out, the others kept in order; the changing list and the properties are untouched |
| Observable.AddChangingListener | lab4/lab4.py:146-147 | a new changing-listener is appended, a registered one leaves the list as it was; the changed list and the properties are untouched |
| Observable.RemoveChangingListenerAsWritten | lab4/lab4.py:149-150 | as written: nothing happens unless the listener is a changed-listener; then it raises if it is not a changing-listener, and otherwise its first occurrence is cut from the changing list with everything else kept |
| Observable.RemoveChangingListener | lab4/lab4.py:149-150 | the intended removal: an absent changing-listener is ignored; a present one has its first occurrence cut out, the others kept in order; the changed list and the properties are untouched |
| Observable.AddThenRemove | lab4/lab4.py:140-144 | adding a new listener and removing it again restores the list |
| Observable.AddIdempotent | lab4/lab4.py:140-141 | adding the same listener twice is the same as adding it once |
| Observable.GuardedSet | lab4/lab4.py:118-153 | with the three stock validators registered, a setter commits a new value exactly when it passes its property's validator, and notifies only then |
| Observable.ConstructorSkipsValidation | lab4/lab4.py:95-103 | a film can be constructed with an empty title, the year 1369 and the rating 12 |
| Observable.DemoFilmShape | lab4/lab4.py:163-173 | the demonstration film holds its constructor values, the log as its only changed-listener and the three validators in order |
| Observable.DemoRejects | lab4/lab4.py:179-184 | before 2077, each of the demonstration's invalid assignments, including the year 2077, is refused and leaves the film unchanged |
| Observable.DemoAccepts | lab4/lab4.py:191-193 | each of the demonstration's valid assignments is committed and reported to the log |
| Observable.RemoveChangingScenario | lab4/lab4.py:149-150 | as written, a validator cannot be removed, and removing the log raises; the intended method removes the validator and ignores the log |
| Injector.Register | lab7/lab7.py:58-73 | a class together with a factory is refused; otherwise only the protocol's registration is replaced, with parameters defaulting to an empty record, and no cache is touched |
| Injector.EnterScope | lab7/lab7.py:76-82 | entering the outermost scope sets the flag and empties the scoped cache; entering a nested one changes nothing |
| Injector.ExitScope | lab7/lab7.py:83-87 | leaving the outermost scope clears the flag and the scoped cache; leaving a nested one changes nothing |
| Injector.GetInstance | lab7/lab7.py:89-112 | an unregistered protocol raises; a cached singleton or scoped instance is returned as is; an uncached request succeeds exactly when `create_instance` does, returns its instance and keeps the container `create_instance` left, every instance cached for nested dependencies included, adding only the requested protocol's own cache entry under a singleton or scoped lifestyle; a per-request instance is issued by this request; success or fault, no cache loses an entry |
| Injector.CreateInstance | lab7/lab7.py:114-128 | a factory is called when present; otherwise a missing class raises, explicit parameters override injected ones of the same name, and every registered annotated dependency is injected; a fault keeps the caches filled before it |
| Injector.Inject | lab7/lab7.py:121-124 | every annotated parameter, other than `return`, whose type is registered receives an injected instance; a fault part-way keeps the instances already cached |
| Injector.InjectReady | lab7/lab7.py:121-124 | injection succeeds when every registered dependency it requests has a factory or is already cached, given depth for one more request |
| Injector.CreateReady | lab7/lab7.py:114-128 | `create_instance` succeeds for a factory, and for a class whose registered dependencies all have a factory or a cached instance |
| Injector.InjectKeeps | lab7/lab7.py:120-124 | an argument name no annotation uses keeps the value it had before injection |
| Injector.InjectsCached | lab7/lab7.py:121-124 | a singleton or scoped dependency receives exactly the instance the container caches for it, the last annotation of a name deciding its argument |
| Injector.FirstInjectedCached | lab7/lab7.py:121-124 | the first annotation's dependency, when no later annotation reuses its name, keeps the instance requested for it, which stays cached under a singleton or scoped lifestyle |
| Injector.InjectsFresh | lab7/lab7.py:112-124 | a dependency with a per-request (or any other non-caching) lifestyle receives the instance its own request has just built, issued during this injection and so newer than anything the container held before |
| Injector.CreateInjectsCached | lab7/lab7.py:114-128 | a built class holds, for each singleton or scoped dependency not overridden by an explicit parameter, the same instance every later `get_instance` returns |
| Injector.CreateInjectsFresh | lab7/lab7.py:112-128 | a built class holds, for each per-request dependency not overridden by an explicit parameter, a new instance issued during this call, distinct from every earlier one and from the class's own instance |
| Injector.GetInjectsCached | lab7/lab7.py:89-128 | the singleton or scoped dependencies of a class built by `get_instance` stay cached after the request, so every later request for one returns the instance the built object holds |
| Injector.RunKeepsSingletons | lab7/lab7.py:76-112 | no sequence of requests and scopes evicts a singleton or changes a registration |
| Injector.SingletonForever | lab7/lab7.py:96-102 | once created, a singleton is what every later request returns, inside or outside any scope |
| Injector.ReRegisterKeepsSingleton | lab7/lab7.py:68-73 | re-registering a protocol does not evict its cached singleton |
| Injector.ScopedCachedAnywhere | lab7/lab7.py:104-110 | a scoped instance is cached and reused whether or not a scope is open |
| Injector.ScopeEndsScopedInstance | lab7/lab7.py:81-87 | after the outermost scope ends, a scoped protocol yields a new instance |
| Injector.PerRequestFresh | lab7/lab7.py:112 | two per-request instances are never the same object |
| Injector.SelfDependencyFails | lab7/lab7.py:121-124 | a class that depends on its own per-request protocol never resolves |
| Injector.FaultKeepsEarlierSingleton | lab7/lab7.py:100-124 | when the second dependency of a class cannot be built, the first, a singleton, is already cached and served to every later request |
| Injector.DemoRegistration | lab7/lab7.py:131-134 | the demonstration's three registrations build the expected container |
| Injector.DemoScenario | lab7/lab7.py:136-158 | the singleton is one object throughout, the scoped instance is shared inside the scope and replaced after it, the difference protocol is registered per request, and the two per-request instances requested inside the second scope differ |
| Users.GetById | lab5/lab5.py:93-97 | the first stored record with the id, or nothing exactly when no record has it |
| Users.GetAll | lab5/lab5.py:90-91 | every stored record is listed once, in file order, so whatever `get_by_id` finds is among them |
| Users.GetByLogin | lab5/lab5.py:129-133 | the first stored record with the login, or nothing exactly when no record has it |
| Users.SignUp | lab5/lab5.py:104-108 | a record is appended exactly when its id is new, so unique ids stay unique |
| Users.AddByList | lab5/lab5.py:99-102 | adding a list keeps the old records in front, stores every listed id, appends only listed records, each with an id not stored before it, and keeps ids unique |
| Users.AddByListAppend | lab5/lab5.py:99-108 | adding a list in two parts is adding each part in turn, and a one-record list is one sign-up, so the appended records are the listed ones with new ids, in list order |
| Users.Update | lab5/lab5.py:110-115 | only the first record with the item's id is replaced; without one the store is unchanged |
| Users.DeleteAsWritten | lab5/lab5.py:117-119 | as written, `delete` always raises: a key error on a non-empty store, a type error on an empty one |
| Users.Delete | lab5/lab5.py:117-119 | the intended `delete` keeps every record with another id as often as it was stored and drops every record with the id |
| Users.DeleteAppend | lab5/lab5.py:117-119 | deleting from two stores joined end to end is deleting from each, so the kept records stay in order |
| Users.DeleteAbsent | lab5/lab5.py:117-119 | deleting an id no record has leaves the store unchanged |
| Users.UpdateThenGet | lab5/lab5.py:110-115 | with unique ids, looking up an updated id finds the new record |
| Users.DeleteUndoesSignUp | lab5/lab5.py:104-119 | signing up a new id and deleting it again restores the store |
| Users.AddByListTwice | lab5/lab5.py:99-102 | adding the same list twice adds nothing the second time |
| Users.AddByListPresent | lab5/lab5.py:99-102 | adding records whose ids are all stored leaves the store unchanged |
| Users.GetAllAfterSignUp | lab5/lab5.py:90-91 | after a sign-up, all records are listed in order with the new one last |
| Users.DemoAdded | lab5/lab5.py:191 | adding the demonstration's two users to an empty store stores both, in order |
| Users.DemoRepository | lab5/lab5.py:184-211 | the demonstration adds two users, signs up a third and updates it, keeping three records with unique ids |
| Auth.StartSession | lab5/lab5.py:142-148 | a session file signs in the user stored under its id, or nobody if that id is gone; no file, nobody |
| Auth.IsAuthorized | lab5/lab5.py:175-177 | someone is authorized exactly when a current user is set |
| Auth.EndSession | lab5/lab5.py:150-155 | the signed-in user's id is written to the session file; with nobody signed in nothing happens |
| Auth.SignIn | lab5/lab5.py:159-165 | succeeds exactly when the first record with the login has the password, then records the session; a failure keeps the existing session |
| Auth.SignOut | lab5/lab5.py:167-177 | afterwards nobody is authorized; a signed-in user's session file is removed; otherwise nothing changes |
| Auth.SignInResumes | lab5/lab5.py:142-165 | with unique ids, the next start resumes the session a sign-in saved |
| Auth.SignOutEndsSession | lab5/lab5.py:142-173 | after signing out, the next start finds nobody signed in |
| Auth.DemoSignIn | lab5/lab5.py:225-230 | signing out and then in as "Boss" leaves Boss signed in with the session saved |
| Auth.WrongPasswordKeepsSession | lab5/lab5.py:159-165 | a wrong password returns false and leaves the session as it was |

## Left out

- File I/O is not modelled:
  - the memento file load and save and the JSON encoding;
  - the `output.txt` logger and the printed messages;
  - the `binds.json` / `default_binds.json` bootstrap in the keyboard constructor, with `_state_save` and `_state_load`;
  - the repository's `load_json` / `save_json` and its constructor's error handling. The JSON file is taken to always equal the in-memory list.
- The strings that `exec`, `undo` and `redo` return are not modelled. Of the press results, only the text "Unknown key: k" is.
- Python reflection is replaced by datatypes:
  - command lookup through `Command.__subclasses__()` and `__dict__`;
  - dependency discovery through `__annotations__`. A class is given with its annotation list.
- Snapshot.Decode: a stored parameter of the wrong type is refused as a bad argument. Python would build the command, so `set_state` would return true, and the command would fail later when run.
- Snapshot.DecodeTableContents: a stored table whose keys repeat is not covered by the contents property. Such a table cannot come from a JSON object, whose keys are distinct.
- Snapshot.SetState: malformed records are not modelled. A state that is not a dictionary, or a binding record without `class` or `state`, would make `set_state` return false. The model's record always has these parts.
- Observable.Verdict: Python's `bool` is an `int`, so `True` passes the year and rating validators as 1. The model has no boolean value.
- Observable.Verdict: a NaN rating passes both range tests in Python. `real` has no NaN.
- Observable.Verdict: `datetime.now().year` is the `currentYear` parameter.
- Observable.Set: a listener's side effects are not modelled. Changed-listeners are represented by the list of notices they receive, and the console log's printing is not modelled.
- Listener identity is equality of listener values (an id plus a behaviour). A user-defined changing-listener is one with a fixed answer.
- Injector.GetInstance: the `fuel` bound stands for Python's recursion limit. Dependency chains nested deeper than the fuel fail with `RecursionLimit`, where Python allows about a thousand frames.
- Injector.GetInjectsCached: a class annotated with its own protocol is not covered. Such a request recurses until it runs out of depth, so it never succeeds.
- Injector.CreateInstance: a factory is taken to return a fresh object each call. A constructor that rejects the assembled arguments (a `TypeError` in Python) is not modelled. Explicit parameter values are integers standing for any value.
- Falsy class or factory values, which `if factory_method and class_type` would treat as absent, are not modelled.
- The example classes of `lab7` and their floating-point arithmetic are left out.
- Users.GetById: records are returned as stored. The round trip of a record through `User(**item)` is not modelled.
- A `User`'s optional `email` and `address` default to `False` in Python. They are `None` here.
- `User.__lt__` / `__mt__` (case-insensitive name order) and `show_data` are not part of the core and are left out.
- `sign_up` and `update` store the item's own `__dict__` (lab5/lab5.py:107 and 113), so mutating the object afterwards changes the store without another call. The model stores a copy.
- Auth.StartSession: a session file without a `user_id` field, which raises `KeyError`, is not modelled. Neither are write errors in `end_session` and `os.remove`.
- The demonstration scripts' `input()` loop and printing are left out. Their fixed steps appear as the scenario lemmas.

## Findings

| source | as written | input that shows it | evidently intended | confidence | as-written member | corrected member |
|---|---|---|---|---|---|---|
| lab6/lab6.py:160-176 | undo and redo log "History empty" and then pop the empty list anyway, raising `IndexError` | `press("undo")` on a keyboard with no history | report the empty history and leave the keyboard unchanged | high (not executed) | Keyboard.EmptyHistoryRaises | Keyboard.UndoOrKeep |
| lab6/lab6.py:203-216 | `set_state` assigns the globals and clears the bindings before decoding them, so a failed decode returns false with the keyboard half replaced | a snapshot whose one binding names the class "Bogus" | on failure, leave the keyboard as it was | medium (not executed) | Snapshot.PartialSetState | Snapshot.SetStateAtomic |
| lab4/lab4.py:149-150 | `remove_property_changing_listener` tests membership in the changed list but removes from the changing list | removing a registered validator, or removing a log registered only as a changed-listener | test and remove in the changing list | high (not executed) | Observable.RemoveChangingScenario | Observable.RemoveChangingListener |
| lab5/lab5.py:117-119 | `delete` indexes records with the builtin `id` instead of `'id'` and passes an extra argument to `save_json` | `delete(user)` on any store | remove the records with the item's id and save | high (not executed) | Users.DeleteAsWritten | Users.Delete |

=== FILE: auth.dfy ===
/**
 The authentication service: the signed-in user and the session file that
 lets a later start resume the session. The session file is modelled as the
 user id it holds, or `None` when there is no file.
 */
module Auth {
  import opened Wrappers
  import opened Users

  datatype Session = Session(current: Option<User>, sessionFile: Option<int>)

  /** `is_authorized`: someone is signed in. */
  predicate IsAuthorized(a: Session): (b: bool)
    ensures b <==> a.current != None
  {
    a.current.Some?
  }

  /** `start_session`: with a session file, sign in whoever the repository holds under the
      stored id (nobody if the id is gone); without one, nobody is signed in. */
  function StartSession(s: Store, sessionFile: Option<int>): (a: Session)
    ensures a.sessionFile == sessionFile
    ensures sessionFile.None? ==> !IsAuthorized(a)
    ensures sessionFile.Some? ==> (IsAuthorized(a) <==> HasId(s, sessionFile.value))
    ensures IsAuthorized(a) ==> a.current.value in s && a.current.value.id == sessionFile.value
  {
    Session(if sessionFile.None? then None else GetById(s, sessionFile.value), sessionFile)
  }

  /** `end_session`: write the signed-in user's id to the session file; nobody signed in, nothing written. */
  function EndSession(a: Session): (r: Session)
    ensures !IsAuthorized(a) ==> r == a
    ensures IsAuthorized(a) ==> r == a.(sessionFile := Some(a.current.value.id))
  {
    if a.current.None? then a else a.(sessionFile := Some(a.current.value.id))
  }

  /** `sign_in`: succeed, and record the session, exactly when the first record with this
      login has this password; a failed attempt keeps whatever session there was. */
  function SignIn(s: Store, a: Session, login: string, password: string): (r: (Session, bool))
    ensures r.1 <==> GetByLogin(s, login).Some? && GetByLogin(s, login).value.password == password
    ensures r.1 ==> r.0 == Session(GetByLogin(s, login), Some(GetByLogin(s, login).value.id))
    ensures !r.1 ==> r.0 == a
  {
    var u := GetByLogin(s, login);
    if u.Some? && u.value.password == password then (EndSession(a.(current := u)), true)
    else (a, false)
  }

  /** `sign_out`: a signed-in user is signed out and the session file removed; otherwise nothing happens. */
  function SignOut(a: Session): (r: Session)
    ensures !IsAuthorized(r)
    ensures IsAuthorized(a) ==> r.sessionFile.None?
    ensures !IsAuthorized(a) ==> r == a
  {
    if IsAuthorized(a) then Session(None, None) else a
  }

  /** With unique ids, a session saved by a successful sign-in resumes, on the next start,
      as the same user. */
  lemma SignInResumes(s: Store, a: Session, login: string, password: string)
    requires UniqueIds(s)
    requires SignIn(s, a, login, password).1
    ensures var a' := SignIn(s, a, login, password).0;
      StartSession(s, a'.sessionFile) == a'
  {
    var u := GetByLogin(s, login).value;
    var i :| 0 <= i < |s| && s[i] == u;
    assert IdIndex(s, u.id) == i;
  }

  /** After signing out, the next start finds no session. */
  lemma SignOutEndsSession(s: Store, a: Session)
    requires IsAuthorized(a)
    ensures StartSession(s, SignOut(a).sessionFile) == SignOut(a)
  {
  }

  /** The demonstration's last steps: signing out and signing in as "Boss" leaves Boss signed in. */
  lemma DemoSignIn(a: Session)
    ensures var s := DemoUsers();
      var (a', ok) := SignIn(s, SignOut(a), "Boss", "bfu4life");
      ok && a'.current == Some(s[1]) && a'.sessionFile == Some(1)
  {
    var s := DemoUsers();
    assert s[0].login == "JankFank" && s[1].login == "Boss";
    assert LoginIndex(s, "Boss") == 1;
  }

  /** A wrong password is refused and keeps the current user signed in. */
  lemma WrongPasswordKeepsSession(s: Store, a: Session, login: string, password: string)
    requires GetByLogin(s, login).Some? && GetByLogin(s, login).value.password != password
    ensures SignIn(s, a, login, password) == (a, false)
  {
  }
}

=== FILE: bindings.dfy ===
/**
 The key-binding table: an insertion-ordered dictionary from key names to an
 optional command. A key bound to `None` is distinct from a key that is absent.
 */
module Bindings {
  import opened Wrappers
  import opened Commands

  datatype Binding = Binding(key: string, cmd: Option<Cmd>)
  /** Entries in insertion order, as a Python dict iterates them. */
  type Table = seq<Binding>

  function Keys(t: Table): (ks: seq<string>)
    ensures |ks| == |t|
    ensures forall i :: 0 <= i < |t| ==> ks[i] == t[i].key
  {
    seq(|t|, i requires 0 <= i < |t| => t[i].key)
  }

  /** No element occurs twice. */
  predicate Distinct<T(==)>(s: seq<T>)
  {
    forall i, j :: 0 <= i < j < |s| ==> s[i] != s[j]
  }

  /** No key appears twice, which holds of every dict. */
  predicate UniqueKeys(t: Table)
  {
    Distinct(Keys(t))
  }

  /** Position of the entry holding `k`, or `|t|` when there is none. */
  function Find(t: Table, k: string): (i: nat)
    ensures i <= |t|
    ensures i < |t| ==> t[i].key == k
    ensures forall j :: 0 <= j < i ==> t[j].key != k
  {
    if |t| == 0 then 0
    else if t[0].key == k then 0
    else 1 + Find(t[1..], k)
  }

  /** Dictionary lookup: `None` when the key is absent, `Some(None)` when it is bound to nothing. */
  function Lookup(t: Table, k: string): (r: Option<Option<Cmd>>)
    ensures r.None? <==> k !in Keys(t)
    ensures r.Some? ==> Binding(k, r.value) in t
  {
    var i := Find(t, k);
    if i == |t| then None else Some(t[i].cmd)
  }

  /** Dictionary assignment `t[k] = c`: an existing key keeps its position, a new key goes last. */
  function Bind(t: Table, k: string, c: Option<Cmd>): (r: Table)
    ensures Lookup(r, k) == Some(c)
    ensures forall k' :: k' != k ==> Lookup(r, k') == Lookup(t, k')
    ensures k in Keys(t) ==> Keys(r) == Keys(t)
    ensures k !in Keys(t) ==> r == t + [Binding(k, c)]
  {
    var i := Find(t, k);
    if i == |t| then
      var r := t + [Binding(k, c)];
      assert forall j :: 0 <= j < |t| ==> r[j] == t[j];
      assert r[|t|].key == k;
      assert Find(r, k) == |t|;
      assert forall k' :: k' != k ==> Lookup(r, k') == Lookup(t, k') by {
        forall k' | k' != k ensures Lookup(r, k') == Lookup(t, k') {
          var i' := Find(t, k');
          if i' < |t| {
            assert r[i'] == t[i'];
          }
        }
      }
      r
    else
      var r := t[i := Binding(k, c)];
      assert Keys(r) == Keys(t);
      FindByKeys(t, r);
      r
  }

  /** Assignment keeps a table free of duplicate keys. */
  lemma BindKeepsUnique(t: Table, k: string, c: Option<Cmd>)
    requires UniqueKeys(t)
    ensures UniqueKeys(Bind(t, k, c))
  {
    if k !in Keys(t) {
      assert Keys(Bind(t, k, c)) == Keys(t) + [k];
    }
  }

  /** Two tables with the same key sequence place every key at the same position. */
  lemma FindByKeys(t: Table, u: Table)
    requires Keys(t) == Keys(u)
    ensures forall k :: Find(t, k) == Find(u, k)
  {
  }
}

=== FILE: commands.dfy ===
/**
 The four reversible commands of the keyboard processor and the process-wide
 state (text buffer, volume level, media-player flag) they act upon.
 */
module Commands {

  /** The three module-level globals `text`, `volume` and `media_player`. */
  datatype Globals = Globals(text: string, volume: int, media: bool)

  /** The amount a volume command uses when none is given. */
  const DefaultAmount: int := 20

  /** A command holds only its construction parameters. */
  datatype Cmd =
    | KeyCmd(ch: string)
    | VolumeUp(amount: int)
    | VolumeDown(amount: int)
    | MediaPlayer

  /** Drops the last character of `s`; the empty string stays empty (Python's `s[:-1]`). */
  function DropLast(s: string): (r: string)
    ensures |s| == 0 ==> r == s
    ensures |s| > 0 ==> |r| == |s| - 1 && r + [s[|s| - 1]] == s
  {
    if |s| == 0 then s else s[..|s| - 1]
  }

  /** Runs a command forwards. Each variant touches only its own global. */
  function Exec(c: Cmd, g: Globals): (r: Globals)
    ensures c.KeyCmd? ==> r.volume == g.volume && r.media == g.media && |r.text| == |g.text| + |c.ch| && r.text[..|g.text|] == g.text && r.text[|g.text|..] == c.ch
    ensures c.VolumeUp? ==> r.text == g.text && r.media == g.media && r.volume - g.volume == c.amount
    ensures c.VolumeDown? ==> r.text == g.text && r.media == g.media && g.volume - r.volume == c.amount
    ensures c.MediaPlayer? ==> r.text == g.text && r.volume == g.volume && r.media
  {
    match c
    case KeyCmd(ch) => g.(text := g.text + ch)
    case VolumeUp(a) => g.(volume := g.volume + a)
    case VolumeDown(a) => g.(volume := g.volume - a)
    case MediaPlayer => g.(media := true)
  }

  /** Runs a command backwards. A key command removes one character, whatever its length. */
  function Undo(c: Cmd, g: Globals): (r: Globals)
    ensures c.KeyCmd? ==> r.volume == g.volume && r.media == g.media && r.text == DropLast(g.text)
    ensures c.VolumeUp? ==> r.text == g.text && r.media == g.media && g.volume - r.volume == c.amount
    ensures c.VolumeDown? ==> r.text == g.text && r.media == g.media && r.volume - g.volume == c.amount
    ensures c.MediaPlayer? ==> r.text == g.text && r.volume == g.volume && !r.media
  {
    match c
    case KeyCmd(_) => g.(text := DropLast(g.text))
    case VolumeUp(a) => g.(volume := g.volume - a)
    case VolumeDown(a) => g.(volume := g.volume + a)
    case MediaPlayer => g.(media := false)
  }

  /** Redo of every variant is a fresh run of `Exec`. */
  function Redo(c: Cmd, g: Globals): (r: Globals)
    ensures r == Exec(c, g)
    ensures Reversible(c) ==> Undo(c, r) == g
  {
    Exec(c, g)
  }

  /** Commands whose undo is an exact inverse of their execution. */
  predicate Reversible(c: Cmd)
  {
    match c
    case KeyCmd(ch) => |ch| == 1
    case VolumeUp(_) => true
    case VolumeDown(_) => true
    case MediaPlayer => false
  }

  /** Commands a key press can create or a well-formed binding holds: key commands of one character. */
  predicate WellFormed(c: Cmd)
  {
    c.KeyCmd? ==> |c.ch| == 1
  }

  /** Undo after exec restores the globals exactly for a reversible command. */
  lemma ExecUndoRestores(c: Cmd, g: Globals)
    requires Reversible(c)
    ensures Undo(c, Exec(c, g)) == g
  {
    if c.KeyCmd? {
      assert (g.text + c.ch)[..|g.text|] == g.text;
    }
  }

  /** Undo after exec restores the globals exactly when, and only when, the
      command is reversible, or is a media command started with the player off,
      or is an empty key command on an empty buffer. */
  lemma ExecUndoIdentityIff(c: Cmd, g: Globals)
    ensures Undo(c, Exec(c, g)) == g <==>
      (Reversible(c) || (c.MediaPlayer? && !g.media) || (c.KeyCmd? && |c.ch| == 0 && |g.text| == 0))
  {
    if c.KeyCmd? {
      var t := g.text + c.ch;
      if |c.ch| == 1 {
        ExecUndoRestores(c, g);
      } else if |c.ch| == 0 {
        assert t == g.text;
        if |g.text| > 0 {
          assert |DropLast(t)| != |g.text|;
        }
      } else {
        assert |DropLast(t)| != |g.text|;
      }
    } else if c.VolumeUp? || c.VolumeDown? {
      ExecUndoRestores(c, g);
    }
  }

  /** Redo after exec-then-undo lands back on the executed state, for every well-formed command,
      media included (its undo forgets the prior flag, but redo sets it again). */
  lemma ExecUndoRedo(c: Cmd, g: Globals)
    requires WellFormed(c)
    ensures Redo(c, Undo(c, Exec(c, g))) == Exec(c, g)
  {
    if c.MediaPlayer? {
    } else {
      ExecUndoRestores(c, g);
    }
  }
}

=== FILE: injector.dfy ===
/**
 A dependency-injection container: registrations per protocol, a singleton
 cache, a scoped cache and a scope flag. Constructing an object is abstracted
 to issuing a fresh handle, so two instances are the same object exactly when
 their handles agree.
 */
module Injector {
  import opened Wrappers

  /** A protocol, identified by its name. */
  type Proto = string

  const PerRequest: string := "PerRequest"
  const Scoped: string := "Scoped"
  const Singleton: string := "Singleton"

  /** A class: its name and its annotations in declaration order, each a parameter name
      with the type it is annotated with. */
  datatype ClassInfo = ClassInfo(name: string, annotations: seq<(string, Proto)>)

  /** A registration. Explicit parameter values are integers standing for any value;
      a factory is identified by a number. */
  datatype Registration = Registration(cls: Option<ClassInfo>, lifestyle: string, params: map<string, int>, factory: Option<nat>)

  /** A constructor argument: an injected instance (by handle) or an explicit value. */
  datatype Arg = Injected(handle: nat) | Given(value: int)

  /** Where an instance came from. */
  datatype Source = FromFactory(factory: nat) | FromClass(name: string)

  datatype Instance = Instance(handle: nat, source: Source, args: map<string, Arg>)

  datatype Container = Container(
    regs: map<Proto, Registration>,
    singletons: map<Proto, Instance>,
    scoped: map<Proto, Instance>,
    inScope: bool,
    next: nat)

  /** `ValueError` when registering both a class and a factory or asking for an unregistered
      protocol; `TypeError` when calling a missing class; `RecursionError` when dependency
      resolution nests too deeply. */
  datatype Fault = BothGiven | NotRegistered(proto: Proto) | NotCallable | RecursionLimit

  /** Whether `scope()` entered the outermost scope or a nested one. */
  datatype Token = Outermost | Nested

  function Empty(): Container
  {
    Container(map[], map[], map[], false, 0)
  }

  /** `register`: a class and a factory together are refused; otherwise the protocol's
      registration is overwritten, missing parameters reading as an empty record. */
  function Register(c: Container, p: Proto, cls: Option<ClassInfo>, lifestyle: string, factory: Option<nat>, params: Option<map<string, int>>): (r: Result<Container, Fault>)
    ensures r.Failure? <==> cls.Some? && factory.Some?
    ensures r.Failure? ==> r.error == BothGiven
    ensures r.Success? ==>
      && p in r.value.regs
      && r.value.regs[p] == Registration(cls, lifestyle, if params.Some? then params.value else map[], factory)
      && (forall q :: q != p ==> (q in r.value.regs <==> q in c.regs) && (q in c.regs ==> r.value.regs[q] == c.regs[q]))
      && r.value.singletons == c.singletons && r.value.scoped == c.scoped
      && r.value.inScope == c.inScope && r.value.next == c.next
  {
    if cls.Some? && factory.Some? then Failure(BothGiven)
    else
      var reg := Registration(cls, lifestyle, if params.Some? then params.value else map[], factory);
      Success(c.(regs := c.regs[p := reg]))
  }

  /** Entering `scope()`: only the outermost scope sets the flag and empties the scoped cache. */
  function EnterScope(c: Container): (r: (Container, Token))
    ensures c.inScope ==> r == (c, Nested)
    ensures !c.inScope ==> r == (c.(inScope := true, scoped := map[]), Outermost)
  {
    if c.inScope then (c, Nested)
    else (c.(inScope := true, scoped := map[]), Outermost)
  }

  /** Leaving `scope()`: leaving the outermost scope clears the flag and the scoped cache;
      leaving a nested one does nothing. */
  function ExitScope(c: Container, t: Token): (r: Container)
    ensures t == Nested ==> r == c
    ensures t == Outermost ==> !r.inScope && r.scoped == map[]
    ensures r.regs == c.regs && r.singletons == c.singletons && r.next == c.next
  {
    if t == Nested then c else c.(inScope := false, scoped := map[])
  }

  /** `b` holds every entry of `a`, unchanged. */
  predicate Extends(a: map<Proto, Instance>, b: map<Proto, Instance>)
  {
    forall q :: q in a ==> q in b && b[q] == a[q]
  }

  /** `b` is a later state of `a` within one request: registrations and the scope flag
      are as they were, no handle is reissued and neither cache loses an entry. */
  predicate Grows(a: Container, b: Container)
  {
    && b.regs == a.regs
    && b.inScope == a.inScope
    && a.next <= b.next
    && Extends(a.singletons, b.singletons)
    && Extends(a.scoped, b.scoped)
  }

  /** Every cached instance was issued before the counter's current value. */
  predicate Issued(c: Container)
  {
    && (forall q :: q in c.singletons ==> c.singletons[q].handle < c.next)
    && (forall q :: q in c.scoped ==> c.scoped[q].handle < c.next)
  }

  /** A registered protocol whose instance is in the cache its lifestyle uses. */
  predicate Cached(c: Container, p: Proto)
    requires p in c.regs
  {
    || (c.regs[p].lifestyle == Singleton && p in c.singletons)
    || (c.regs[p].lifestyle == Scoped && p in c.scoped)
  }

  /** `b` agrees with `a` on every protocol other than `p`. */
  predicate AgreeBut(a: map<Proto, Instance>, b: map<Proto, Instance>, p: Proto)
  {
    && (forall q :: q in b && q != p ==> q in a)
    && (forall q :: q in a && q != p ==> q in b && b[q] == a[q])
  }

  /** The outcome of a request: the built value, or the fault that was raised. Either way the
      container is the one left behind, since caches filled before a fault stay filled. */
  datatype Built<T> = Done(c: Container, value: T) | Raised(c: Container, fault: Fault)

  /** `get_instance`: a cached singleton or scoped instance is returned as is; otherwise an
      instance is created, and cached under a singleton or scoped lifestyle. Any other
      lifestyle string behaves as per-request. `fuel` bounds how deeply dependencies nest. */
  function GetInstance(c: Container, p: Proto, fuel: nat): (r: Built<Instance>)
    ensures p !in c.regs ==> r == Raised(c, NotRegistered(p))
    ensures p in c.regs && c.regs[p].lifestyle == Singleton && p in c.singletons ==> r == Done(c, c.singletons[p])
    ensures p in c.regs && c.regs[p].lifestyle == Scoped && p in c.scoped ==> r == Done(c, c.scoped[p])
    ensures Grows(c, r.c)
    ensures Issued(c) ==> Issued(r.c) && (r.Done? ==> r.value.handle < r.c.next)
    ensures r.Done? && c.regs[p].lifestyle == Singleton ==> p in r.c.singletons && r.c.singletons[p] == r.value
    ensures r.Done? && c.regs[p].lifestyle == Scoped ==> p in r.c.scoped && r.c.scoped[p] == r.value
    ensures r.Done? && c.regs[p].lifestyle != Singleton && c.regs[p].lifestyle != Scoped ==> c.next <= r.value.handle < r.c.next
    ensures p in c.regs && !Cached(c, p) ==>
      var made := CreateInstance(c, c.regs[p], fuel);
      && r.Done? == made.Done?
      && (r.Done? ==> r.value == made.value)
      && (r.Done? ==> r.c.regs == made.c.regs && r.c.inScope == made.c.inScope && r.c.next == made.c.next)
      && (r.Done? ==> AgreeBut(made.c.singletons, r.c.singletons, p) && AgreeBut(made.c.scoped, r.c.scoped, p))
      && (r.Raised? ==> r == made)
    decreases fuel, 2
  {
    if p !in c.regs then Raised(c, NotRegistered(p))
    else
      var reg := c.regs[p];
      if reg.lifestyle == Singleton then
        if p in c.singletons then Done(c, c.singletons[p])
        else
          match CreateInstance(c, reg, fuel)
          case Raised(c', e) => Raised(c', e)
          case Done(c', inst) => Done(c'.(singletons := c'.singletons[p := inst]), inst)
      else if reg.lifestyle == Scoped then
        if p in c.scoped then Done(c, c.scoped[p])
        else
          match CreateInstance(c, reg, fuel)
          case Raised(c', e) => Raised(c', e)
          case Done(c', inst) => Done(c'.(scoped := c'.scoped[p := inst]), inst)
      else CreateInstance(c, reg, fuel)
  }

  /** `create_instance`: call the factory when there is one; otherwise inject every annotated
      dependency whose type is registered, let the explicit parameters override them, and
      call the class. The new instance takes the next handle. */
  function CreateInstance(c: Container, reg: Registration, fuel: nat): (r: Built<Instance>)
    ensures reg.factory.Some? ==> r == Done(c.(next := c.next + 1), Instance(c.next, FromFactory(reg.factory.value), map[]))
    ensures reg.factory.None? && reg.cls.None? ==> r == Raised(c, NotCallable)
    ensures Grows(c, r.c)
    ensures Issued(c) ==> Issued(r.c)
    ensures r.Done? ==> r.value.handle == r.c.next - 1 && c.next <= r.value.handle
    ensures r.Done? && reg.factory.None? ==>
      && reg.cls.Some?
      && r.value.source == FromClass(reg.cls.value.name)
      && (forall n :: n in reg.params ==> n in r.value.args && r.value.args[n] == Given(reg.params[n]))
      && (forall i :: 0 <= i < |reg.cls.value.annotations| ==>
            var (n, t) := reg.cls.value.annotations[i];
            n != "return" && t in c.regs && n !in reg.params ==> n in r.value.args && r.value.args[n].Injected?)
    decreases fuel, 1
  {
    if reg.factory.Some? then
      Done(c.(next := c.next + 1), Instance(c.next, FromFactory(reg.factory.value), map[]))
    else if reg.cls.None? then Raised(c, NotCallable)
    else
      match Inject(c, reg.cls.value.annotations, fuel, map[])
      case Raised(c', e) => Raised(c', e)
      case Done(c', injected) =>
        var args := injected + map n | n in reg.params :: Given(reg.params[n]);
        Done(c'.(next := c'.next + 1), Instance(c'.next, FromClass(reg.cls.value.name), args))
  }

  /** Resolves the annotated parameters in order: a parameter named `return`, or one whose
      type is not registered, is skipped; the others are requested from the container. */
  function Inject(c: Container, anns: seq<(string, Proto)>, fuel: nat, acc: map<string, Arg>): (r: Built<map<string, Arg>>)
    ensures Grows(c, r.c)
    ensures Issued(c) ==> Issued(r.c)
    ensures r.Done? ==> forall n :: n in acc ==> n in r.value
    ensures r.Done? ==> forall n :: n in r.value ==> r.value[n].Injected? || (n in acc && r.value[n] == acc[n])
    ensures r.Done? ==> forall i :: 0 <= i < |anns| && anns[i].0 != "return" && anns[i].1 in c.regs ==> anns[i].0 in r.value && r.value[anns[i].0].Injected?
    decreases fuel, 0, |anns|
  {
    if |anns| == 0 then Done(c, acc)
    else
      var (name, t) := anns[0];
      if name == "return" || t !in c.regs then
        var r := Inject(c, anns[1..], fuel, acc);
        assert forall i :: 1 <= i < |anns| ==> anns[i] == anns[1..][i - 1];
        r
      else if fuel == 0 then Raised(c, RecursionLimit)
      else
        match GetInstance(c, t, fuel - 1)
        case Raised(c', e) => Raised(c', e)
        case Done(c', inst) =>
          var r := Inject(c', anns[1..], fuel, acc[name := Injected(inst.handle)]);
          assert forall i :: 1 <= i < |anns| ==> anns[i] == anns[1..][i - 1];
          r
  }

  /** A protocol a request can serve at no depth: registered with a factory, or already cached. */
  predicate Ready(c: Container, p: Proto)
  {
    p in c.regs && (c.regs[p].factory.Some? || Cached(c, p))
  }

  /** Every annotated dependency that will be requested is ready. */
  predicate AllReady(c: Container, anns: seq<(string, Proto)>)
  {
    forall i :: 0 <= i < |anns| && anns[i].0 != "return" && anns[i].1 in c.regs ==> Ready(c, anns[i].1)
  }

  lemma ReadyGrows(a: Container, b: Container, anns: seq<(string, Proto)>)
    requires Grows(a, b) && AllReady(a, anns)
    ensures AllReady(b, anns)
  {
  }

  /** Injection succeeds when every dependency it requests is ready: each is served from a
      cache or a factory without nesting any further. */
  lemma {:induction false} InjectReady(c: Container, anns: seq<(string, Proto)>, fuel: nat, acc: map<string, Arg>)
    requires fuel > 0 && AllReady(c, anns)
    ensures Inject(c, anns, fuel, acc).Done?
    decreases |anns|
  {
    if |anns| > 0 {
      var (name, t) := anns[0];
      assert AllReady(c, anns[1..]) by {
        assert forall i :: 0 <= i < |anns| - 1 ==> anns[1..][i] == anns[i + 1];
      }
      if name == "return" || t !in c.regs {
        InjectReady(c, anns[1..], fuel, acc);
      } else {
        var got := GetInstance(c, t, fuel - 1);
        assert got.Done?;
        ReadyGrows(c, got.c, anns[1..]);
        InjectReady(got.c, anns[1..], fuel, acc[name := Injected(got.value.handle)]);
      }
    }
  }

  /** `create_instance` succeeds for a factory, and for a class whose requested dependencies
      are all ready when there is depth left to request them. */
  lemma CreateReady(c: Container, reg: Registration, fuel: nat)
    requires reg.factory.Some? || (reg.cls.Some? && fuel > 0 && AllReady(c, reg.cls.value.annotations))
    ensures CreateInstance(c, reg, fuel).Done?
  {
    if reg.factory.None? {
      InjectReady(c, reg.cls.value.annotations, fuel, map[]);
    }
  }

  /** An argument name no annotation uses keeps the value it had before injection. */
  lemma {:induction false} InjectKeeps(c: Container, anns: seq<(string, Proto)>, fuel: nat, acc: map<string, Arg>, n: string)
    requires Inject(c, anns, fuel, acc).Done?
    requires n in acc && forall j :: 0 <= j < |anns| ==> anns[j].0 != n
    ensures n in Inject(c, anns, fuel, acc).value && Inject(c, anns, fuel, acc).value[n] == acc[n]
    decreases |anns|
  {
    if |anns| > 0 {
      var (name, t) := anns[0];
      assert forall j :: 0 <= j < |anns| - 1 ==> anns[1..][j] == anns[j + 1];
      if name == "return" || t !in c.regs {
        InjectKeeps(c, anns[1..], fuel, acc, n);
      } else {
        var got := GetInstance(c, t, fuel - 1);
        InjectKeeps(got.c, anns[1..], fuel, acc[name := Injected(got.value.handle)], n);
      }
    }
  }

  /** A dependency with a singleton or scoped lifestyle receives the very instance the container
      then caches for it; the last annotation with a given name decides its argument. */
  lemma {:induction false} InjectsCached(c: Container, anns: seq<(string, Proto)>, fuel: nat, acc: map<string, Arg>, i: nat)
    requires Inject(c, anns, fuel, acc).Done?
    requires i < |anns| && anns[i].0 != "return" && anns[i].1 in c.regs
    requires forall j :: i < j < |anns| ==> anns[j].0 != anns[i].0
    ensures var (n, t) := anns[i]; var r := Inject(c, anns, fuel, acc);
      && (c.regs[t].lifestyle == Singleton ==> t in r.c.singletons && r.value[n] == Injected(r.c.singletons[t].handle))
      && (c.regs[t].lifestyle == Scoped ==> t in r.c.scoped && r.value[n] == Injected(r.c.scoped[t].handle))
    decreases |anns|
  {
    if i == 0 {
      FirstInjectedCached(c, anns, fuel, acc);
    } else {
      var (name, t) := anns[0];
      assert forall j :: 0 <= j < |anns| - 1 ==> anns[1..][j] == anns[j + 1];
      if name == "return" || t !in c.regs {
        assert Inject(c, anns, fuel, acc) == Inject(c, anns[1..], fuel, acc);
        InjectsCached(c, anns[1..], fuel, acc, i - 1);
      } else {
        var got := GetInstance(c, t, fuel - 1);
        var acc' := acc[name := Injected(got.value.handle)];
        assert Inject(c, anns, fuel, acc) == Inject(got.c, anns[1..], fuel, acc');
        InjectsCached(got.c, anns[1..], fuel, acc', i - 1);
      }
    }
  }

  /** The first annotation's case of `InjectsCached`: its instance is requested first and then
      stays cached, and no later annotation rebinds its name. */
  lemma FirstInjectedCached(c: Container, anns: seq<(string, Proto)>, fuel: nat, acc: map<string, Arg>)
    requires Inject(c, anns, fuel, acc).Done?
    requires 0 < |anns| && anns[0].0 != "return" && anns[0].1 in c.regs
    requires forall j :: 0 < j < |anns| ==> anns[j].0 != anns[0].0
    ensures var (n, t) := anns[0]; var r := Inject(c, anns, fuel, acc);
      && (c.regs[t].lifestyle == Singleton ==> t in r.c.singletons && r.value[n] == Injected(r.c.singletons[t].handle))
      && (c.regs[t].lifestyle == Scoped ==> t in r.c.scoped && r.value[n] == Injected(r.c.scoped[t].handle))
  {
    var (name, t) := anns[0];
    var got := GetInstance(c, t, fuel - 1);
    var acc' := acc[name := Injected(got.value.handle)];
    assert Inject(c, anns, fuel, acc) == Inject(got.c, anns[1..], fuel, acc');
    assert forall j :: 0 <= j < |anns[1..]| ==> anns[1..][j].0 != name by {
      assert forall j :: 0 <= j < |anns| - 1 ==> anns[1..][j] == anns[j + 1];
    }
    InjectKeeps(got.c, anns[1..], fuel, acc', name);
  }

  /** A dependency with any other lifestyle receives the instance its request has just built:
      issued during this injection, so newer than anything the container held before it. */
  lemma {:induction false} InjectsFresh(c: Container, anns: seq<(string, Proto)>, fuel: nat, acc: map<string, Arg>, i: nat)
    requires Inject(c, anns, fuel, acc).Done?
    requires i < |anns| && anns[i].0 != "return" && anns[i].1 in c.regs
    requires forall j :: i < j < |anns| ==> anns[j].0 != anns[i].0
    requires c.regs[anns[i].1].lifestyle != Singleton && c.regs[anns[i].1].lifestyle != Scoped
    ensures var n := anns[i].0; var r := Inject(c, anns, fuel, acc);
      r.value[n].Injected? && c.next <= r.value[n].handle < r.c.next
    decreases |anns|
  {
    var (name, t) := anns[0];
    assert forall j :: 0 <= j < |anns| - 1 ==> anns[1..][j] == anns[j + 1];
    if name == "return" || t !in c.regs {
      InjectsFresh(c, anns[1..], fuel, acc, i - 1);
    } else {
      var got := GetInstance(c, t, fuel - 1);
      var acc' := acc[name := Injected(got.value.handle)];
      if i == 0 {
        InjectKeeps(got.c, anns[1..], fuel, acc', name);
      } else {
        InjectsFresh(got.c, anns[1..], fuel, acc', i - 1);
      }
    }
  }

  /** A class built by `create_instance` receives, for each singleton or scoped dependency it does
      not override with an explicit parameter, the instance every later request returns. */
  lemma CreateInjectsCached(c: Container, reg: Registration, fuel: nat, i: nat, fuel': nat)
    requires reg.factory.None? && reg.cls.Some?
    requires CreateInstance(c, reg, fuel).Done?
    requires var anns := reg.cls.value.annotations;
      && i < |anns| && anns[i].0 != "return" && anns[i].1 in c.regs && anns[i].0 !in reg.params
      && forall j :: i < j < |anns| ==> anns[j].0 != anns[i].0
    requires c.regs[reg.cls.value.annotations[i].1].lifestyle in {Singleton, Scoped}
    ensures var (n, t) := reg.cls.value.annotations[i]; var r := CreateInstance(c, reg, fuel);
      && n in r.value.args && r.value.args[n].Injected?
      && var later := GetInstance(r.c, t, fuel');
      && later.Done? && later.c == r.c && later.value.handle == r.value.args[n].handle
  {
    InjectsCached(c, reg.cls.value.annotations, fuel, map[], i);
  }

  /** A class built by `create_instance` receives, for each per-request dependency it does not
      override with an explicit parameter, an instance issued during this very call: newer than
      anything the container held before, and older than the class's own instance. */
  lemma CreateInjectsFresh(c: Container, reg: Registration, fuel: nat, i: nat)
    requires reg.factory.None? && reg.cls.Some?
    requires CreateInstance(c, reg, fuel).Done?
    requires var anns := reg.cls.value.annotations;
      && i < |anns| && anns[i].0 != "return" && anns[i].1 in c.regs && anns[i].0 !in reg.params
      && forall j :: i < j < |anns| ==> anns[j].0 != anns[i].0
    requires c.regs[reg.cls.value.annotations[i].1].lifestyle !in {Singleton, Scoped}
    ensures var (n, t) := reg.cls.value.annotations[i]; var r := CreateInstance(c, reg, fuel);
      && n in r.value.args && r.value.args[n].Injected?
      && c.next <= r.value.args[n].handle < r.value.handle
  {
    InjectsFresh(c, reg.cls.value.annotations, fuel, map[], i);
  }

  /** The instances cached while building a requested class survive the request: each singleton
      or scoped dependency the built object holds is what every later request for it returns.
      A dependency on the requested protocol itself is excluded; such a request never resolves. */
  lemma GetInjectsCached(c: Container, p: Proto, fuel: nat, i: nat, fuel': nat)
    requires p in c.regs && !Cached(c, p)
    requires c.regs[p].factory.None? && c.regs[p].cls.Some?
    requires GetInstance(c, p, fuel).Done?
    requires var reg := c.regs[p]; var anns := reg.cls.value.annotations;
      && i < |anns| && anns[i].0 != "return" && anns[i].1 in c.regs && anns[i].0 !in reg.params
      && anns[i].1 != p
      && forall j :: i < j < |anns| ==> anns[j].0 != anns[i].0
    requires c.regs[c.regs[p].cls.value.annotations[i].1].lifestyle in {Singleton, Scoped}
    ensures var (n, t) := c.regs[p].cls.value.annotations[i]; var r := GetInstance(c, p, fuel);
      && n in r.value.args && r.value.args[n].Injected?
      && var later := GetInstance(r.c, t, fuel');
      && later.Done? && later.c == r.c && later.value.handle == r.value.args[n].handle
  {
    var reg := c.regs[p];
    var (n, t) := reg.cls.value.annotations[i];
    var made := CreateInstance(c, reg, fuel);
    CreateInjectsCached(c, reg, fuel, i, fuel');
    var before := GetInstance(made.c, t, fuel');
    assert before.Done? && before.c == made.c;
  }

  /** What a client does with the container: request a protocol, or enter or leave `scope()`. */
  datatype Op = Request(p: Proto) | Open | Close(t: Token)

  /** Runs the operations in order, stopping at the first request that raises. */
  function Run(c: Container, ops: seq<Op>, fuel: nat): Result<Container, Fault>
    decreases |ops|
  {
    if |ops| == 0 then Success(c)
    else
      match ops[0]
      case Open => Run(EnterScope(c).0, ops[1..], fuel)
      case Close(t) => Run(ExitScope(c, t), ops[1..], fuel)
      case Request(p) =>
        match GetInstance(c, p, fuel)
        case Raised(_, e) => Failure(e)
        case Done(c', _) => Run(c', ops[1..], fuel)
  }

  /** No request and no scope ever evicts a singleton, and the registrations stay as they are. */
  lemma {:induction false} RunKeepsSingletons(c: Container, ops: seq<Op>, fuel: nat)
    requires Run(c, ops, fuel).Success?
    ensures Extends(c.singletons, Run(c, ops, fuel).value.singletons)
    ensures Run(c, ops, fuel).value.regs == c.regs
    decreases |ops|
  {
    if |ops| > 0 {
      match ops[0]
      case Open =>
        RunKeepsSingletons(EnterScope(c).0, ops[1..], fuel);
      case Close(t) =>
        RunKeepsSingletons(ExitScope(c, t), ops[1..], fuel);
      case Request(p) =>
        var c' := GetInstance(c, p, fuel).c;
        RunKeepsSingletons(c', ops[1..], fuel);
    }
  }

  /** Once a singleton exists, every later request for it, inside or outside any scope,
      returns that same instance. */
  lemma SingletonForever(c: Container, p: Proto, fuel: nat, ops: seq<Op>, fuel': nat)
    requires p in c.regs && c.regs[p].lifestyle == Singleton
    requires GetInstance(c, p, fuel).Done?
    requires Run(GetInstance(c, p, fuel).c, ops, fuel').Success?
    ensures var Done(c1, i) := GetInstance(c, p, fuel);
      var c2 := Run(c1, ops, fuel').value;
      GetInstance(c2, p, fuel') == Done(c2, i)
  {
    RunKeepsSingletons(GetInstance(c, p, fuel).c, ops, fuel');
  }

  /** Re-registering a protocol does not evict its cached singleton. */
  lemma ReRegisterKeepsSingleton(c: Container, p: Proto, cls: Option<ClassInfo>, factory: Option<nat>, params: Option<map<string, int>>, fuel: nat)
    requires p in c.singletons
    requires Register(c, p, cls, Singleton, factory, params).Success?
    ensures var c' := Register(c, p, cls, Singleton, factory, params).value;
      GetInstance(c', p, fuel) == Done(c', c.singletons[p])
  {
  }

  /** The scoped cache serves repeated requests whether or not a scope is open. */
  lemma ScopedCachedAnywhere(c: Container, p: Proto, fuel: nat, fuel': nat)
    requires p in c.regs && c.regs[p].lifestyle == Scoped
    requires GetInstance(c, p, fuel).Done?
    ensures var Done(c1, i) := GetInstance(c, p, fuel);
      GetInstance(c1, p, fuel') == Done(c1, i)
  {
  }

  /** Leaving the outermost scope forgets the scoped instance: the next request builds a new one. */
  lemma ScopeEndsScopedInstance(c: Container, p: Proto, fuel: nat)
    requires Issued(c)
    requires p in c.regs && c.regs[p].lifestyle == Scoped
    requires GetInstance(c, p, fuel).Done?
    requires var c2 := ExitScope(GetInstance(c, p, fuel).c, Outermost); GetInstance(c2, p, fuel).Done?
    ensures var Done(c1, i) := GetInstance(c, p, fuel);
      var c2 := ExitScope(c1, Outermost);
      GetInstance(c2, p, fuel).value.handle != i.handle
  {
  }

  /** Two requests in a row for a per-request protocol give two different objects. */
  lemma PerRequestFresh(c: Container, p: Proto, fuel: nat)
    requires Issued(c)
    requires p in c.regs && c.regs[p].lifestyle != Singleton && c.regs[p].lifestyle != Scoped
    requires GetInstance(c, p, fuel).Done?
    requires GetInstance(GetInstance(c, p, fuel).c, p, fuel).Done?
    ensures var Done(c1, i) := GetInstance(c, p, fuel);
      GetInstance(c1, p, fuel).value.handle != i.handle
  {
  }

  /** A class that depends on its own protocol can never be built: the resolution nests
      until it runs out of depth, as Python's recursion limit would stop it. */
  lemma {:induction false} SelfDependencyFails(c: Container, p: Proto, name: string, fuel: nat)
    requires name != "return"
    requires p in c.regs && c.regs[p].factory.None? && c.regs[p].lifestyle != Singleton && c.regs[p].lifestyle != Scoped
    requires c.regs[p].cls.Some? && c.regs[p].cls.value.annotations == [(name, p)]
    ensures GetInstance(c, p, fuel) == Raised(c, RecursionLimit)
    decreases fuel
  {
    var reg := c.regs[p];
    var anns := reg.cls.value.annotations;
    assert anns[0] == (name, p);
    if fuel > 0 {
      SelfDependencyFails(c, p, name, fuel - 1);
    }
    assert Inject(c, anns, fuel, map[]) == Raised(c, RecursionLimit);
    assert CreateInstance(c, reg, fuel) == Raised(c, RecursionLimit);
  }

  /** A fault part-way through resolution keeps what was built before it: a per-request class
      whose first dependency is a singleton and whose second names no class raises, and the
      singleton stays cached for every later request. */
  lemma FaultKeepsEarlierSingleton()
    ensures var c := Container(map[
        "Top" := Registration(Some(ClassInfo("Top", [("d", "Dep"), ("b", "Broken")])), PerRequest, map[], None),
        "Dep" := Registration(Some(ClassInfo("Dep", [])), Singleton, map[], None),
        "Broken" := Registration(None, PerRequest, map[], None)],
        map[], map[], false, 0);
      var r := GetInstance(c, "Top", 1);
      && r.Raised? && r.fault == NotCallable
      && "Dep" in r.c.singletons && r.c.singletons["Dep"].handle == 0
      && GetInstance(r.c, "Dep", 1) == Done(r.c, r.c.singletons["Dep"])
  {
    var c := Container(map[
        "Top" := Registration(Some(ClassInfo("Top", [("d", "Dep"), ("b", "Broken")])), PerRequest, map[], None),
        "Dep" := Registration(Some(ClassInfo("Dep", [])), Singleton, map[], None),
        "Broken" := Registration(None, PerRequest, map[], None)],
        map[], map[], false, 0);
    var anns := [("d", "Dep"), ("b", "Broken")];
    assert Inject(c, [], 0, map[]) == Done(c, map[]);
    var dep := GetInstance(c, "Dep", 0);
    assert dep.Done? && dep.value.handle == 0;
    assert anns[1..] == [("b", "Broken")];
    assert Inject(dep.c, anns[1..], 1, map["d" := Injected(0)]) == Raised(dep.c, NotCallable);
    assert Inject(c, anns, 1, map[]) == Raised(dep.c, NotCallable);
  }

  /** The demonstration's container: a singleton, a scoped and a per-request protocol,
      each backed by a class without annotations. */
  function DemoContainer(): Container
  {
    Container(map[
      "MultiplyProtocol" := Registration(Some(ClassInfo("MultiplyByFive", [])), Singleton, map[], None),
      "SubstractProtocol" := Registration(Some(ClassInfo("SubstractByTwo", [])), Scoped, map[], None),
      "DifferenceProtocol" := Registration(Some(ClassInfo("DifferenceFromFive", [])), PerRequest, map[], None)],
      map[], map[], false, 0)
  }

  /** The demonstration's three `register` calls build that container. */
  lemma DemoRegistration()
    ensures var c1 := Register(Empty(), "MultiplyProtocol", Some(ClassInfo("MultiplyByFive", [])), Singleton, None, None).value;
      var c2 := Register(c1, "SubstractProtocol", Some(ClassInfo("SubstractByTwo", [])), Scoped, None, None).value;
      Register(c2, "DifferenceProtocol", Some(ClassInfo("DifferenceFromFive", [])), PerRequest, None, None).value == DemoContainer()
  {
  }

  /** The demonstration: the singleton is one object throughout, the scoped instance is shared
      inside the scope and replaced after it, and per-request instances are all distinct. */
  lemma DemoScenario()
    ensures var c := DemoContainer();
      var Done(c1, mult1) := GetInstance(c, "MultiplyProtocol", 1);
      var Done(c2, mult2) := GetInstance(c1, "MultiplyProtocol", 1);
      var (c3, tok) := EnterScope(c2);
      var Done(c4, mult3) := GetInstance(c3, "MultiplyProtocol", 1);
      var Done(c5, sub1) := GetInstance(c4, "SubstractProtocol", 1);
      var Done(c6, sub2) := GetInstance(c5, "SubstractProtocol", 1);
      var c7 := ExitScope(c6, tok);
      var Done(c8, sub3) := GetInstance(c7, "SubstractProtocol", 1);
      var (c9, tok2) := EnterScope(c8);
      var Done(c10, diff1) := GetInstance(c9, "DifferenceProtocol", 1);
      var Done(c11, diff2) := GetInstance(c10, "DifferenceProtocol", 1);
      var c12 := ExitScope(c11, tok2);
      && mult1 == mult2 && mult1 == mult3
      && sub1 == sub2 && sub1 != sub3
      && c8.regs["DifferenceProtocol"].lifestyle == PerRequest
      && diff1 != diff2
      && !c12.inScope
  {
    var c := DemoContainer();
    var r1 := DemoBuilds(c, "MultiplyProtocol");
    var r2 := GetInstance(r1.c, "MultiplyProtocol", 1);
    var (c3, tok) := EnterScope(r2.c);
    var r4 := GetInstance(c3, "MultiplyProtocol", 1);
    var r5 := DemoBuilds(r4.c, "SubstractProtocol");
    var r6 := GetInstance(r5.c, "SubstractProtocol", 1);
    var c7 := ExitScope(r6.c, tok);
    var r8 := DemoBuilds(c7, "SubstractProtocol");
    var (c9, tok2) := EnterScope(r8.c);
    var r10 := DemoBuilds(c9, "DifferenceProtocol");
    var r11 := DemoBuilds(r10.c, "DifferenceProtocol");
  }

  /** A demonstration protocol whose instance is not cached yet is built without fault. */
  lemma DemoBuilds(c: Container, p: Proto) returns (r: Built<Instance>)
    requires c.regs == DemoContainer().regs && p in c.regs
    requires c.regs[p].lifestyle == Singleton ==> p !in c.singletons
    requires c.regs[p].lifestyle == Scoped ==> p !in c.scoped
    ensures r == GetInstance(c, p, 1) && r.Done?
  {
    var reg := c.regs[p];
    assert reg.factory.None? && reg.cls.Some? && reg.cls.value.annotations == [];
    assert Inject(c, [], 1, map[]) == Done(c, map[]);
    r := GetInstance(c, p, 1);
  }
}

=== FILE: keyboard.dfy ===
/**
 The keyboard processor: a binding table plus back and forward history
 stacks, dispatching key presses, undo and redo over the process globals.
 */
module Keyboard {
  import opened Wrappers
  import opened Commands
  import opened Bindings

  /** A history entry: the key that was pressed and the command it ran. */
  datatype Entry = Entry(key: string, cmd: Cmd)

  /** The globals together with the keyboard's own fields. The top of each stack is its last element. */
  datatype Machine = Machine(g: Globals, binds: Table, back: seq<Entry>, forward: seq<Entry>)

  /** What a press hands back: a command ran, the key was unknown, or undo/redo ran (which return nothing). */
  datatype Reply = Ran | UnknownKey(message: string) | Replayed

  /** Popping an empty history stack raises `IndexError`. */
  datatype Fault = EmptyHistory

  const UndoKey: string := "undo"
  const RedoKey: string := "redo"

  /** The command a key is bound to; absent keys and keys bound to `None` give nothing (`dict.get`). */
  function Bound(t: Table, k: string): (r: Option<Cmd>)
    ensures r.Some? ==> Lookup(t, k) == Some(Some(r.value))
    ensures r.None? <==> Lookup(t, k).None? || Lookup(t, k) == Some(None)
  {
    match Lookup(t, k)
    case Some(Some(c)) => Some(c)
    case _ => None
  }

  /** The command a press of `k` runs: its binding, else a fresh key command for a one-character key. */
  function Resolve(t: Table, k: string): (r: Option<Cmd>)
    ensures Bound(t, k).Some? ==> r == Bound(t, k)
    ensures Bound(t, k).None? && |k| == 1 ==> r == Some(KeyCmd(k))
    ensures r.None? <==> Bound(t, k).None? && |k| != 1
  {
    if Bound(t, k).Some? then Bound(t, k)
    else if |k| == 1 then Some(KeyCmd(k))
    else None
  }

  /** `key_bind`: overwrite the binding of `k`, leaving globals and histories alone. */
  function KeyBind(m: Machine, k: string, c: Option<Cmd>): (r: Machine)
    ensures Lookup(r.binds, k) == Some(c)
    ensures forall k' :: k' != k ==> Lookup(r.binds, k') == Lookup(m.binds, k')
    ensures Keys(r.binds) == if k in Keys(m.binds) then Keys(m.binds) else Keys(m.binds) + [k]
    ensures r.g == m.g && r.back == m.back && r.forward == m.forward
  {
    var t := Bind(m.binds, k, c);
    assert k !in Keys(m.binds) ==> Keys(t) == Keys(m.binds) + [k];
    m.(binds := t)
  }

  /** Runs `c` for key `k`: push it on the back history and clear the forward history. */
  function Dispatch(m: Machine, k: string, c: Cmd): (r: Machine)
    ensures r.g == Exec(c, m.g) && r.binds == m.binds
    ensures r.back == m.back + [Entry(k, c)] && r.forward == []
  {
    Machine(Exec(c, m.g), m.binds, m.back + [Entry(k, c)], [])
  }

  /** Undo right after a press pops exactly the entry the press pushed and hands it to redo;
      for a reversible command the globals are back where they were. */
  lemma DispatchThenUndo(m: Machine, k: string, c: Cmd)
    ensures UndoStep(Dispatch(m, k, c)) == Success(Machine(Undo(c, Exec(c, m.g)), m.binds, m.back, [Entry(k, c)]))
    ensures Reversible(c) ==> UndoStep(Dispatch(m, k, c)).value.g == m.g
  {
    assert (m.back + [Entry(k, c)])[..|m.back|] == m.back;
    assert [] + [Entry(k, c)] == [Entry(k, c)];
    if Reversible(c) {
      ExecUndoRestores(c, m.g);
    }
  }

  /** `undo`: pop the back history, run the entry's undo, push the entry on the forward history. */
  function UndoStep(m: Machine): (r: Result<Machine, Fault>)
    ensures r.Failure? <==> |m.back| == 0
    ensures r.Success? ==>
      && r.value.back + [m.back[|m.back| - 1]] == m.back
      && r.value.forward == m.forward + [m.back[|m.back| - 1]]
      && r.value.g == Undo(m.back[|m.back| - 1].cmd, m.g)
      && r.value.binds == m.binds
  {
    if |m.back| == 0 then Failure(EmptyHistory)
    else
      var e := m.back[|m.back| - 1];
      Success(Machine(Undo(e.cmd, m.g), m.binds, m.back[..|m.back| - 1], m.forward + [e]))
  }

  /** `redo`: pop the forward history, run the entry's redo, push the entry on the back history. */
  function RedoStep(m: Machine): (r: Result<Machine, Fault>)
    ensures r.Failure? <==> |m.forward| == 0
    ensures r.Success? ==>
      && r.value.forward + [m.forward[|m.forward| - 1]] == m.forward
      && r.value.back == m.back + [m.forward[|m.forward| - 1]]
      && r.value.g == Exec(m.forward[|m.forward| - 1].cmd, m.g)
      && r.value.binds == m.binds
  {
    if |m.forward| == 0 then Failure(EmptyHistory)
    else
      var e := m.forward[|m.forward| - 1];
      Success(Machine(Redo(e.cmd, m.g), m.binds, m.back + [e], m.forward[..|m.forward| - 1]))
  }

  /** Undo that, on an empty back history, reports and stops instead of popping. */
  function UndoOrKeep(m: Machine): (r: Machine)
    ensures |m.back| == 0 ==> r == m
    ensures |m.back| > 0 ==> UndoStep(m) == Success(r)
  {
    if |m.back| == 0 then m else UndoStep(m).value
  }

  /** Redo that, on an empty forward history, reports and stops instead of popping. */
  function RedoOrKeep(m: Machine): (r: Machine)
    ensures |m.forward| == 0 ==> r == m
    ensures |m.forward| > 0 ==> RedoStep(m) == Success(r)
  {
    if |m.forward| == 0 then m else RedoStep(m).value
  }

  /** `press`: route "undo" and "redo"; otherwise resolve the key, auto-binding a
      one-character key that has no command, and run it; an unresolvable key changes nothing. */
  function Press(m: Machine, k: string): (r: Result<(Machine, Reply), Fault>)
    ensures k == UndoKey ==> r.Success? == UndoStep(m).Success? && (r.Success? ==> r.value == (UndoStep(m).value, Replayed))
    ensures k == RedoKey ==> r.Success? == RedoStep(m).Success? && (r.Success? ==> r.value == (RedoStep(m).value, Replayed))
    ensures k != UndoKey && k != RedoKey && Resolve(m.binds, k).Some? ==>
      var c := Resolve(m.binds, k).value;
      && r.Success? && r.value.1 == Ran
      && r.value.0.g == Exec(c, m.g)
      && r.value.0.back == m.back + [Entry(k, c)]
      && r.value.0.forward == []
      && Lookup(r.value.0.binds, k) == Some(Some(c))
      && (forall k' :: k' != k ==> Lookup(r.value.0.binds, k') == Lookup(m.binds, k'))
    ensures k != UndoKey && k != RedoKey && Bound(m.binds, k).Some? ==> r.value.0.binds == m.binds
    ensures k != UndoKey && k != RedoKey && Bound(m.binds, k).None? && |k| == 1 ==>
      Keys(r.value.0.binds) == if k in Keys(m.binds) then Keys(m.binds) else Keys(m.binds) + [k]
    ensures k != UndoKey && k != RedoKey && Resolve(m.binds, k).None? ==>
      r == Success((m, UnknownKey("Unknown key: " + k)))
  {
    if k == UndoKey then
      match UndoStep(m)
      case Success(m') => Success((m', Replayed))
      case Failure(f) => Failure(f)
    else if k == RedoKey then
      match RedoStep(m)
      case Success(m') => Success((m', Replayed))
      case Failure(f) => Failure(f)
    else
      var bound := Bound(m.binds, k);
      if bound.None? && |k| == 1 then
        var m' := KeyBind(m, k, Some(KeyCmd(k)));
        Success((Dispatch(m', k, KeyCmd(k)), Ran))
      else if bound.Some? then
        Success((Dispatch(m, k, bound.value), Ran))
      else
        Success((m, UnknownKey("Unknown key: " + k)))
  }

  /** A sequence of presses, stopping at the first one that raises. */
  function RunKeys(m: Machine, ks: seq<string>): Result<Machine, Fault>
    decreases |ks|
  {
    if |ks| == 0 then Success(m)
    else
      var p := Press(m, ks[0]);
      if p.Failure? then Failure(p.error) else RunKeys(p.value.0, ks[1..])
  }

  /** A press keeps the binding table a proper dictionary: no key is stored twice. */
  lemma PressKeepsUnique(m: Machine, k: string)
    requires UniqueKeys(m.binds)
    ensures Press(m, k).Success? ==> UniqueKeys(Press(m, k).value.0.binds)
  {
    if k != UndoKey && k != RedoKey && Bound(m.binds, k).None? && |k| == 1 {
      BindKeepsUnique(m.binds, k, Some(KeyCmd(k)));
    }
  }

  /** As written, undo and redo on an empty history raise rather than report and carry on;
      the intended variants keep the keyboard unchanged instead. */
  lemma EmptyHistoryRaises(m: Machine)
    requires |m.back| == 0 && |m.forward| == 0
    ensures Press(m, UndoKey) == Failure(EmptyHistory) && Press(m, RedoKey) == Failure(EmptyHistory)
    ensures UndoOrKeep(m) == m && RedoOrKeep(m) == m
  {
  }

  /** A multi-character key with no command, such as "ctrl+z" on a fresh keyboard, changes nothing. */
  lemma UnknownKeyScenario(m: Machine)
    requires Lookup(m.binds, "ctrl+z").None?
    ensures Press(m, "ctrl+z") == Success((m, UnknownKey("Unknown key: ctrl+z")))
  {
    var k := "ctrl+z";
    assert k != UndoKey && k != RedoKey && |k| != 1;
    assert "Unknown key: " + k == "Unknown key: ctrl+z";
  }
}

=== FILE: keyboard_traces.dfy ===
/**
 Properties of whole sequences of key presses: what N plain presses followed
 by N undos restore, and what the matching N redos replay.
 */
module KeyboardTraces {
  import opened Wrappers
  import opened Commands
  import opened Bindings
  import opened Keyboard

  function Repeat(k: string, n: nat): (r: seq<string>)
    ensures |r| == n
    ensures forall i :: 0 <= i < n ==> r[i] == k
  {
    if n == 0 then [] else [k] + Repeat(k, n - 1)
  }

  /** The entries in the opposite order: the last entry first. */
  function Reverse(es: seq<Entry>): (r: seq<Entry>)
    ensures |r| == |es|
  {
    if |es| == 0 then [] else [es[|es| - 1]] + Reverse(es[..|es| - 1])
  }

  /** Executes the entries' commands, the first entry first. */
  function ExecAll(es: seq<Entry>, g: Globals): Globals
  {
    if |es| == 0 then g else ExecAll(es[1..], Exec(es[0].cmd, g))
  }

  /** Undoes the entries' commands, the last entry first. */
  function UndoAll(es: seq<Entry>, g: Globals): Globals
  {
    if |es| == 0 then g else UndoAll(es[..|es| - 1], Undo(es[|es| - 1].cmd, g))
  }

  predicate HasMedia(es: seq<Entry>)
  {
    exists i :: 0 <= i < |es| && es[i].cmd.MediaPlayer?
  }

  /** A key that is neither "undo" nor "redo" and that a press can resolve to a command. */
  predicate Plain(t: Table, k: string)
  {
    k != UndoKey && k != RedoKey && Resolve(t, k).Some?
  }

  predicate AllPlain(t: Table, ks: seq<string>)
  {
    forall i :: 0 <= i < |ks| ==> Plain(t, ks[i])
  }

  /** The history entries a run of plain presses records. */
  function Plan(t: Table, ks: seq<string>): (es: seq<Entry>)
    requires AllPlain(t, ks)
    ensures |es| == |ks|
    ensures forall i :: 0 <= i < |ks| ==> es[i] == Entry(ks[i], Resolve(t, ks[i]).value)
  {
    if |ks| == 0 then [] else [Entry(ks[0], Resolve(t, ks[0]).value)] + Plan(t, ks[1..])
  }

  /** Continues a run with more keys, unless it has already raised. */
  function Then(r: Result<Machine, Fault>, ks: seq<string>): Result<Machine, Fault>
  {
    if r.Failure? then r else RunKeys(r.value, ks)
  }

  lemma {:induction false} RunKeysAppend(m: Machine, a: seq<string>, b: seq<string>)
    ensures RunKeys(m, a + b) == Then(RunKeys(m, a), b)
    decreases |a|
  {
    if |a| == 0 {
      assert a + b == b;
    } else {
      assert (a + b)[0] == a[0];
      assert (a + b)[1..] == a[1..] + b;
      var p := Press(m, a[0]);
      if p.Success? {
        RunKeysAppend(p.value.0, a[1..], b);
      }
    }
  }

  lemma ReverseSnoc(es: seq<Entry>, e: Entry)
    ensures Reverse(es + [e]) == [e] + Reverse(es)
  {
    assert (es + [e])[..|es|] == es;
  }

  lemma {:induction false} ReverseCons(e: Entry, es: seq<Entry>)
    ensures Reverse([e] + es) == Reverse(es) + [e]
    decreases |es|
  {
    if |es| == 0 {
    } else {
      var l := es[|es| - 1];
      var init := es[..|es| - 1];
      assert [e] + es == ([e] + init) + [l];
      ReverseSnoc([e] + init, l);
      ReverseCons(e, init);
      ReverseSnoc(init, l);
      assert es == init + [l];
    }
  }

  lemma {:induction false} ReverseReverse(es: seq<Entry>)
    ensures Reverse(Reverse(es)) == es
    decreases |es|
  {
    if |es| > 0 {
      var init := es[..|es| - 1];
      ReverseCons(es[|es| - 1], Reverse(init));
      ReverseReverse(init);
      assert es == init + [es[|es| - 1]];
    }
  }

  lemma {:induction false} ExecAllSnoc(es: seq<Entry>, e: Entry, g: Globals)
    ensures ExecAll(es + [e], g) == Exec(e.cmd, ExecAll(es, g))
    decreases |es|
  {
    if |es| > 0 {
      assert (es + [e])[1..] == es[1..] + [e];
      ExecAllSnoc(es[1..], e, Exec(es[0].cmd, g));
    }
  }

  /** Running the entries overrides a forced media flag exactly when one of them starts the player. */
  lemma {:induction false} ExecAllOverMedia(es: seq<Entry>, g: Globals, b: bool)
    ensures ExecAll(es, g.(media := b)) == ExecAll(es, g).(media := if HasMedia(es) then true else b)
    decreases |es|
  {
    if |es| > 0 {
      var c := es[0].cmd;
      assert Exec(c, g.(media := b)) == Exec(c, g).(media := if c.MediaPlayer? then true else b);
      ExecAllOverMedia(es[1..], Exec(c, g), if c.MediaPlayer? then true else b);
      assert HasMedia(es) <==> c.MediaPlayer? || HasMedia(es[1..]) by {
        if HasMedia(es[1..]) {
          var i :| 0 <= i < |es[1..]| && es[1..][i].cmd.MediaPlayer?;
          assert es[i + 1] == es[1..][i];
        }
        if HasMedia(es) && !c.MediaPlayer? {
          var i :| 0 <= i < |es| && es[i].cmd.MediaPlayer?;
          assert es[1..][i - 1] == es[i];
        }
      }
      if c.MediaPlayer? {
        ExecAllOverMedia(es[1..], Exec(c, g), true);
        assert Exec(c, g).(media := true) == Exec(c, g);
      }
    }
  }

  lemma {:induction false} UndoAllOverMedia(es: seq<Entry>, g: Globals, b: bool)
    ensures UndoAll(es, g.(media := b)) == UndoAll(es, g).(media := if HasMedia(es) then false else b)
    decreases |es|
  {
    if |es| > 0 {
      var init := es[..|es| - 1];
      var c := es[|es| - 1].cmd;
      assert Undo(c, g.(media := b)) == Undo(c, g).(media := if c.MediaPlayer? then false else b);
      UndoAllOverMedia(init, Undo(c, g), if c.MediaPlayer? then false else b);
      HasMediaSnoc(init, es[|es| - 1]);
      assert es == init + [es[|es| - 1]];
      if c.MediaPlayer? {
        UndoAllOverMedia(init, Undo(c, g), false);
        assert Undo(c, g).(media := false) == Undo(c, g);
      }
    }
  }

  lemma HasMediaSnoc(es: seq<Entry>, e: Entry)
    ensures HasMedia(es + [e]) <==> HasMedia(es) || e.cmd.MediaPlayer?
  {
    if HasMedia(es) {
      var i :| 0 <= i < |es| && es[i].cmd.MediaPlayer?;
      assert (es + [e])[i] == es[i];
    }
    if HasMedia(es + [e]) && !e.cmd.MediaPlayer? {
      var i :| 0 <= i < |es + [e]| && (es + [e])[i].cmd.MediaPlayer?;
      assert (es + [e])[|es|] == e;
      assert i < |es|;
      assert es[i] == (es + [e])[i];
    }
  }

  /** Undoing what was executed restores text and volume exactly; the media flag
      ends off if any of the commands started the player, and keeps its value otherwise. */
  lemma {:induction false} UndoAllExecAll(es: seq<Entry>, g: Globals)
    requires forall i :: 0 <= i < |es| ==> WellFormed(es[i].cmd)
    ensures UndoAll(es, ExecAll(es, g)) == g.(media := if HasMedia(es) then false else g.media)
    decreases |es|
  {
    if |es| > 0 {
      var init := es[..|es| - 1];
      var e := es[|es| - 1];
      assert es == init + [e];
      ExecAllSnoc(init, e, g);
      var h := ExecAll(init, g);
      UndoAllExecAll(init, g);
      HasMediaSnoc(init, e);
      if e.cmd.MediaPlayer? {
        assert Undo(e.cmd, Exec(e.cmd, h)) == h.(media := false);
        UndoAllOverMedia(init, h, false);
      } else {
        ExecUndoRestores(e.cmd, h);
      }
    }
  }

  lemma AppendAssoc(a: seq<Entry>, e: Entry, b: seq<Entry>)
    ensures a + ([e] + b) == (a + [e]) + b
  {
  }

  /** N undos with N entries on top of the back history move exactly those entries to the forward history. */
  lemma {:induction false} UndoTimes(m: Machine, below: seq<Entry>, es: seq<Entry>)
    requires m.back == below + es
    ensures RunKeys(m, Repeat(UndoKey, |es|)) ==
      Success(Machine(UndoAll(es, m.g), m.binds, below, m.forward + Reverse(es)))
    decreases |es|
  {
    if |es| > 0 {
      var init := es[..|es| - 1];
      var e := es[|es| - 1];
      assert m.back == (below + init) + [e];
      var m1 := Machine(Undo(e.cmd, m.g), m.binds, below + init, m.forward + [e]);
      assert Press(m, UndoKey) == Success((m1, Replayed));
      assert Repeat(UndoKey, |es|)[1..] == Repeat(UndoKey, |init|);
      assert RunKeys(m, Repeat(UndoKey, |es|)) == RunKeys(m1, Repeat(UndoKey, |init|));
      UndoTimes(m1, below, init);
      assert Reverse(es) == [e] + Reverse(init);
      AppendAssoc(m.forward, e, Reverse(init));
      assert UndoAll(es, m.g) == UndoAll(init, Undo(e.cmd, m.g));
    } else {
      assert below == m.back && m.forward + Reverse(es) == m.forward;
    }
  }

  /** One redo: the top forward entry is re-executed and moved to the back history. */
  lemma RedoPress(m: Machine)
    requires |m.forward| > 0
    ensures var e := m.forward[|m.forward| - 1];
      Press(m, RedoKey) == Success((Machine(Exec(e.cmd, m.g), m.binds, m.back + [e], m.forward[..|m.forward| - 1]), Replayed))
  {
  }

  /** N redos over N forward entries replay them in the order they were first executed. */
  lemma {:induction false} RedoTimes(m: Machine, above: seq<Entry>, rs: seq<Entry>)
    requires m.forward == above + rs
    ensures RunKeys(m, Repeat(RedoKey, |rs|)) ==
      Success(Machine(ExecAll(Reverse(rs), m.g), m.binds, m.back + Reverse(rs), above))
    decreases |rs|
  {
    if |rs| > 0 {
      var init := rs[..|rs| - 1];
      var e := rs[|rs| - 1];
      assert m.forward == (above + init) + [e];
      assert m.forward[..|m.forward| - 1] == above + init;
      var m1 := Machine(Exec(e.cmd, m.g), m.binds, m.back + [e], above + init);
      RedoPress(m);
      assert Repeat(RedoKey, |rs|)[1..] == Repeat(RedoKey, |init|);
      assert RunKeys(m, Repeat(RedoKey, |rs|)) == RunKeys(m1, Repeat(RedoKey, |init|));
      RedoTimes(m1, above, init);
      assert Reverse(rs) == [e] + Reverse(init);
      assert ([e] + Reverse(init))[1..] == Reverse(init);
      assert ExecAll(Reverse(rs), m.g) == ExecAll(Reverse(init), Exec(e.cmd, m.g));
      AppendAssoc(m.back, e, Reverse(init));
    } else {
      assert above == m.forward && m.back + Reverse(rs) == m.back;
    }
  }

  /** Two tables that make every key press run the same command. */
  ghost predicate SameResolve(t: Table, u: Table)
  {
    forall k :: Resolve(t, k) == Resolve(u, k)
  }

  lemma PlanSameResolve(t: Table, u: Table, ks: seq<string>)
    requires SameResolve(t, u)
    requires AllPlain(t, ks)
    ensures AllPlain(u, ks) && Plan(t, ks) == Plan(u, ks)
  {
  }

  /** One plain press runs its command, pushes it, clears the forward history and leaves
      every key resolving as before. */
  lemma PlainPress(m: Machine, k: string)
    requires Plain(m.binds, k)
    ensures Press(m, k).Success?
    ensures var c := Resolve(m.binds, k).value; var m1 := Press(m, k).value.0;
      && m1.g == Exec(c, m.g)
      && m1.back == m.back + [Entry(k, c)]
      && m1.forward == []
      && SameResolve(m.binds, m1.binds)
  {
    var m1 := Press(m, k).value.0;
    forall k' ensures Resolve(m.binds, k') == Resolve(m1.binds, k') {
      if k' != k {
        assert Lookup(m1.binds, k') == Lookup(m.binds, k');
      }
    }
  }

  /** A run whose first press succeeds continues from that press's keyboard. */
  lemma RunKeysStep(m: Machine, ks: seq<string>)
    requires |ks| > 0 && Press(m, ks[0]).Success?
    ensures RunKeys(m, ks) == RunKeys(Press(m, ks[0]).value.0, ks[1..])
  {
  }

  /** The first of a run of plain presses: the keyboard it leaves, from which the rest of the run continues. */
  lemma FirstPlainPress(m: Machine, ks: seq<string>) returns (m1: Machine)
    requires |ks| > 0 && AllPlain(m.binds, ks)
    ensures RunKeys(m, ks) == RunKeys(m1, ks[1..])
    ensures m1.g == Exec(Resolve(m.binds, ks[0]).value, m.g)
    ensures m1.back == m.back + [Plan(m.binds, ks)[0]]
    ensures m1.forward == []
    ensures SameResolve(m.binds, m1.binds)
    ensures AllPlain(m1.binds, ks[1..]) && Plan(m.binds, ks) == [Plan(m.binds, ks)[0]] + Plan(m1.binds, ks[1..])
  {
    var k := ks[0];
    assert Plain(m.binds, k);
    PlainPress(m, k);
    m1 := Press(m, k).value.0;
    RunKeysStep(m, ks);
    assert AllPlain(m.binds, ks[1..]);
    PlanSameResolve(m.binds, m1.binds, ks[1..]);
  }

  lemma ExecAllCons(e: Entry, es: seq<Entry>, g: Globals)
    ensures ExecAll([e] + es, g) == ExecAll(es, Exec(e.cmd, g))
  {
    assert ([e] + es)[1..] == es;
  }

  /** Plain presses run the planned commands in order, push them on the back history,
      clear the forward history and leave every key resolving as before. */
  lemma {:induction false} PressesRecord(m: Machine, ks: seq<string>)
    requires AllPlain(m.binds, ks)
    ensures RunKeys(m, ks).Success?
    ensures var r := RunKeys(m, ks).value;
      && r.g == ExecAll(Plan(m.binds, ks), m.g)
      && r.back == m.back + Plan(m.binds, ks)
      && r.forward == (if |ks| == 0 then m.forward else [])
      && SameResolve(m.binds, r.binds)
    decreases |ks|
  {
    if |ks| > 0 {
      var m1 := FirstPlainPress(m, ks);
      PressesRecord(m1, ks[1..]);
      var e, es := Plan(m.binds, ks)[0], Plan(m1.binds, ks[1..]);
      ExecAllCons(e, es, m.g);
      AppendAssoc(m.back, e, es);
    }
  }

  /** The machine N plain presses followed by N undos reach. */
  lemma PressesThenUndosRun(m: Machine, ks: seq<string>)
    requires AllPlain(m.binds, ks)
    ensures RunKeys(m, ks).Success?
    ensures RunKeys(m, ks + Repeat(UndoKey, |ks|)) ==
      Success(Machine(UndoAll(Plan(m.binds, ks), ExecAll(Plan(m.binds, ks), m.g)),
        RunKeys(m, ks).value.binds, m.back, RunKeys(m, ks).value.forward + Reverse(Plan(m.binds, ks))))
  {
    var undos := Repeat(UndoKey, |ks|);
    PressesRecord(m, ks);
    RunKeysAppend(m, ks, undos);
    UndoTimes(RunKeys(m, ks).value, m.back, Plan(m.binds, ks));
  }

  lemma PlanWellFormed(t: Table, ks: seq<string>)
    requires AllPlain(t, ks)
    requires forall i :: 0 <= i < |ks| ==> WellFormed(Resolve(t, ks[i]).value)
    ensures forall i :: 0 <= i < |ks| ==> WellFormed(Plan(t, ks)[i].cmd)
  {
  }

  /** N plain presses followed by N undos bring text, volume and the back history back
      to where they were; the media flag ends off when one of the presses started the player. */
  lemma PressesThenUndos(m: Machine, ks: seq<string>)
    requires AllPlain(m.binds, ks)
    requires forall i :: 0 <= i < |ks| ==> WellFormed(Resolve(m.binds, ks[i]).value)
    ensures RunKeys(m, ks + Repeat(UndoKey, |ks|)).Success?
    ensures var r := RunKeys(m, ks + Repeat(UndoKey, |ks|)).value;
      && r.g.text == m.g.text
      && r.g.volume == m.g.volume
      && r.g.media == (if HasMedia(Plan(m.binds, ks)) then false else m.g.media)
      && r.back == m.back
  {
    PressesThenUndosRun(m, ks);
    PlanWellFormed(m.binds, ks);
    UndoAllExecAll(Plan(m.binds, ks), m.g);
  }

  /** With no media command among them, N presses and N undos restore the globals exactly. */
  lemma PressesThenUndosRestore(m: Machine, ks: seq<string>)
    requires AllPlain(m.binds, ks)
    requires forall i :: 0 <= i < |ks| ==> Reversible(Resolve(m.binds, ks[i]).value)
    ensures RunKeys(m, ks + Repeat(UndoKey, |ks|)).Success?
    ensures RunKeys(m, ks + Repeat(UndoKey, |ks|)).value.g == m.g
  {
    PressesThenUndos(m, ks);
    NoMediaInPlan(m.binds, ks);
  }

  lemma NoMediaInPlan(t: Table, ks: seq<string>)
    requires AllPlain(t, ks)
    requires forall i :: 0 <= i < |ks| ==> Reversible(Resolve(t, ks[i]).value)
    ensures !HasMedia(Plan(t, ks))
  {
  }

  /** Re-running what was executed and then undone lands on the executed state. */
  lemma ExecAllAfterUndoAll(es: seq<Entry>, g: Globals)
    requires forall i :: 0 <= i < |es| ==> WellFormed(es[i].cmd)
    ensures ExecAll(es, UndoAll(es, ExecAll(es, g))) == ExecAll(es, g)
  {
    UndoAllExecAll(es, g);
    ExecAllOverMedia(es, g, if HasMedia(es) then false else g.media);
    ExecAllOverMedia(es, g, g.media);
    assert g.(media := g.media) == g;
  }

  /** The machine N plain presses, N undos and N redos reach. */
  lemma UndosThenRedosRun(m: Machine, ks: seq<string>)
    requires AllPlain(m.binds, ks) && |ks| > 0
    ensures RunKeys(m, ks).Success?
    ensures RunKeys(m, ks + Repeat(UndoKey, |ks|) + Repeat(RedoKey, |ks|)) ==
      Success(Machine(ExecAll(Plan(m.binds, ks), UndoAll(Plan(m.binds, ks), ExecAll(Plan(m.binds, ks), m.g))),
        RunKeys(m, ks).value.binds, m.back + Plan(m.binds, ks), []))
  {
    var undos := Repeat(UndoKey, |ks|);
    var es := Plan(m.binds, ks);
    PressesRecord(m, ks);
    PressesThenUndosRun(m, ks);
    RunKeysAppend(m, ks + undos, Repeat(RedoKey, |ks|));
    RedoTimes(RunKeys(m, ks + undos).value, [], Reverse(es));
    ReverseReverse(es);
  }

  lemma SameMachine(a: Machine, b: Machine)
    requires a.g == b.g && a.binds == b.binds && a.back == b.back && a.forward == b.forward
    ensures a == b
  {
  }

  /** After N plain presses and N undos, N redos land exactly on the state the presses reached. */
  lemma UndosThenRedos(m: Machine, ks: seq<string>)
    requires AllPlain(m.binds, ks)
    requires forall i :: 0 <= i < |ks| ==> WellFormed(Resolve(m.binds, ks[i]).value)
    ensures RunKeys(m, ks + Repeat(UndoKey, |ks|) + Repeat(RedoKey, |ks|)) == RunKeys(m, ks)
  {
    if |ks| > 0 {
      var es := Plan(m.binds, ks);
      PressesRecord(m, ks);
      var r := RunKeys(m, ks).value;
      var target := Machine(ExecAll(es, m.g), r.binds, m.back + es, []);
      SameMachine(r, target);
      assert RunKeys(m, ks + Repeat(UndoKey, |ks|) + Repeat(RedoKey, |ks|)) == Success(target) by {
        PlanWellFormed(m.binds, ks);
        ExecAllAfterUndoAll(es, m.g);
        UndosThenRedosRun(m, ks);
      }
    }
  }

  /** A plain press empties the forward history, so a redo right after it raises. */
  lemma PressClearsRedo(m: Machine, k: string)
    requires Plain(m.binds, k)
    ensures RunKeys(m, [k, RedoKey]) == Failure(EmptyHistory)
  {
    var m1 := Press(m, k).value.0;
    assert [k, RedoKey][1..] == [RedoKey];
  }

  /** A fresh keyboard: empty buffer, volume 0, player off, nothing bound. The start-up load of
      stored or default bindings is left out, so this is the keyboard before that load. */
  function Fresh(): Machine
  {
    Machine(Globals("", 0, false), [], [], [])
  }

  /** On a fresh keyboard, "a", "b", "c" auto-bind and type "abc", recording the three entries. */
  lemma TypeAbc(m0: Machine)
    requires m0 == Fresh()
    ensures RunKeys(m0, ["a", "b", "c"]).Success?
    ensures var m := RunKeys(m0, ["a", "b", "c"]).value;
      m.g == Globals("abc", 0, false) && m.forward == []
      && m.back == [Entry("a", KeyCmd("a")), Entry("b", KeyCmd("b")), Entry("c", KeyCmd("c"))]
  {
    var abc := ["a", "b", "c"];
    assert Resolve([], "a") == Some(KeyCmd("a"));
    assert Resolve([], "b") == Some(KeyCmd("b"));
    assert Resolve([], "c") == Some(KeyCmd("c"));
    assert AllPlain([], abc);
    PressesRecord(m0, abc);
    assert Plan([], abc) == [Entry("a", KeyCmd("a")), Entry("b", KeyCmd("b")), Entry("c", KeyCmd("c"))];
    ExecAbc();
  }

  lemma ExecAbc()
    ensures ExecAll([Entry("a", KeyCmd("a")), Entry("b", KeyCmd("b")), Entry("c", KeyCmd("c"))], Globals("", 0, false)) == Globals("abc", 0, false)
  {
    var es := [Entry("a", KeyCmd("a")), Entry("b", KeyCmd("b")), Entry("c", KeyCmd("c"))];
    var ga := Exec(KeyCmd("a"), Globals("", 0, false));
    var gb := Exec(KeyCmd("b"), ga);
    assert ExecAll(es, Globals("", 0, false)) == ExecAll(es[1..], ga);
    assert ExecAll(es[1..], ga) == ExecAll(es[2..], gb);
    assert ExecAll(es[2..], gb) == Exec(KeyCmd("c"), gb);
    assert ga == Globals("a", 0, false);
    assert gb.text == "a" + "b" == "ab";
    assert Exec(KeyCmd("c"), gb).text == "ab" + "c" == "abc";
  }

  lemma UndoTwice(m: Machine)
    requires m.g == Globals("abc", 0, false) && m.forward == []
    requires m.back == [Entry("a", KeyCmd("a")), Entry("b", KeyCmd("b")), Entry("c", KeyCmd("c"))]
    ensures RunKeys(m, ["undo", "undo"]) ==
      Success(Machine(Globals("a", 0, false), m.binds, [Entry("a", KeyCmd("a"))], [Entry("c", KeyCmd("c")), Entry("b", KeyCmd("b"))]))
  {
    assert ["undo", "undo"] == Repeat(UndoKey, 2);
    assert m.back == [Entry("a", KeyCmd("a"))] + m.back[1..];
    UndoTimes(m, [Entry("a", KeyCmd("a"))], m.back[1..]);
    assert Reverse(m.back[1..]) == [Entry("c", KeyCmd("c")), Entry("b", KeyCmd("b"))];
    assert m.forward + Reverse(m.back[1..]) == [Entry("c", KeyCmd("c")), Entry("b", KeyCmd("b"))];
    var gc := Undo(KeyCmd("c"), m.g);
    assert gc == Globals("ab", 0, false);
    assert UndoAll(m.back[1..], m.g) == UndoAll([Entry("b", KeyCmd("b"))], gc);
    assert UndoAll([Entry("b", KeyCmd("b"))], gc) == Undo(KeyCmd("b"), gc);
    assert Undo(KeyCmd("b"), gc) == Globals("a", 0, false);
  }

  /** From an empty buffer: "a", "b", "c" then two undos leave "a", with "c" and "b" waiting to be redone. */
  lemma AbcUndo(m0: Machine)
    requires m0 == Fresh()
    ensures RunKeys(m0, ["a", "b", "c", "undo", "undo"]).Success?
    ensures var m := RunKeys(m0, ["a", "b", "c", "undo", "undo"]).value;
      m.g == Globals("a", 0, false) && m.forward == [Entry("c", KeyCmd("c")), Entry("b", KeyCmd("b"))]
  {
    var abc, undos := ["a", "b", "c"], ["undo", "undo"];
    TypeAbc(m0);
    UndoTwice(RunKeys(m0, abc).value);
    RunKeysAppend(m0, abc, undos);
    assert abc + undos == ["a", "b", "c", "undo", "undo"];
  }

  /** ... and one redo after that gives "ab". */
  lemma AbcUndoRedo(m0: Machine)
    requires m0 == Fresh()
    ensures RunKeys(m0, ["a", "b", "c", "undo", "undo", "redo"]).Success?
    ensures RunKeys(m0, ["a", "b", "c", "undo", "undo", "redo"]).value.g.text == "ab"
  {
    var ks := ["a", "b", "c", "undo", "undo"];
    AbcUndo(m0);
    var m := RunKeys(m0, ks).value;
    RedoPress(m);
    RunKeysAppend(m0, ks, ["redo"]);
    assert ks + ["redo"] == ["a", "b", "c", "undo", "undo", "redo"];
    assert Exec(KeyCmd("b"), m.g).text == "a" + "b" == "ab";
  }

  /** From an empty buffer: "a", "b", "c" type "abc"; two undos leave "a"; one redo gives "ab". */
  lemma TypingScenario(m0: Machine)
    requires m0 == Fresh()
    ensures RunKeys(m0, ["a", "b", "c"]).Success?
    ensures RunKeys(m0, ["a", "b", "c"]).value.g.text == "abc"
    ensures RunKeys(m0, ["a", "b", "c", "undo", "undo"]).Success?
    ensures RunKeys(m0, ["a", "b", "c", "undo", "undo"]).value.g.text == "a"
    ensures RunKeys(m0, ["a", "b", "c", "undo", "undo", "redo"]).Success?
    ensures RunKeys(m0, ["a", "b", "c", "undo", "undo", "redo"]).value.g.text == "ab"
  {
    TypeAbc(m0);
    AbcUndo(m0);
    AbcUndoRedo(m0);
  }
}

=== FILE: observable.dfy ===
/**
 A film record whose property setters ask every "changing" listener for
 permission before committing a new value, and tell every "changed" listener
 afterwards. Three stock validators guard the title, the year and the rating.
 */
module Observable {
  import opened Wrappers

  /** A dynamically typed value: `NoValue` is Python's `None`, `Other` any value that is
      neither a string, an integer nor a float. */
  datatype Value = NoValue | Str(s: string) | Int(i: int) | Float(x: real) | Other

  /** The three observable properties of a film. */
  datatype Prop = Title | Year | Rating

  /** What a changing-listener decides with: one of the stock validators, or a listener
      with a fixed answer standing for any other user-supplied listener. */
  datatype Check = TitleCheck | YearCheck | RatingCheck | Fixed(answer: bool)

  /** A listener object; two listeners are the same object exactly when they are equal. */
  datatype Listener = Listener(id: nat, check: Check)

  /** A call `on_property_changed(film, prop)` made to a changed-listener. */
  datatype Notice = Notice(listener: Listener, prop: Prop)

  datatype Film = Film(title: Value, year: Value, rating: Value, changed: seq<Listener>, changing: seq<Listener>)

  /** Removing a changing-listener that is not in the list raises `ValueError`. */
  datatype Fault = NotInList

  /** The year of the first film; earlier years are rejected. */
  const FirstFilmYear: int := 1896
  const MaxRating: int := 10

  /** A title must be a non-empty string; other properties pass. */
  predicate TitleOk(p: Prop, v: Value)
  {
    p == Title ==> v.Str? && |v.s| > 0
  }

  /** A year must be an integer from 1896 up to the current year; other properties pass. */
  predicate YearOk(p: Prop, v: Value, currentYear: int)
  {
    p == Year ==> v.Int? && FirstFilmYear <= v.i <= currentYear
  }

  /** A rating must be an integer or a float between 0 and 10 inclusive; other properties pass. */
  predicate RatingOk(p: Prop, v: Value)
  {
    p == Rating ==> (v.Int? && 0 <= v.i <= MaxRating) || (v.Float? && 0.0 <= v.x <= MaxRating as real)
  }

  /** `on_property_changing` of a listener. The old value only selects a message, never the answer. */
  function Verdict(c: Check, p: Prop, prior: Value, v: Value, currentYear: int): (ok: bool)
    ensures c == TitleCheck ==> (ok <==> TitleOk(p, v))
    ensures c == YearCheck ==> (ok <==> YearOk(p, v, currentYear))
    ensures c == RatingCheck ==> (ok <==> RatingOk(p, v))
    ensures c.Fixed? ==> ok == c.answer
  {
    match c
    case TitleCheck =>
      if p != Title then true
      else if !v.Str? then false
      else if |v.s| == 0 then false
      else true
    case YearCheck =>
      if p != Year then true
      else if !v.Int? then false
      else if v.i < FirstFilmYear then false
      else if v.i > currentYear then false
      else true
    case RatingCheck =>
      if p != Rating then true
      else if !(v.Float? || v.Int?) then false
      else if (v.Int? && v.i < 0) || (v.Float? && v.x < 0.0) then false
      else if (v.Int? && v.i > MaxRating) || (v.Float? && v.x > MaxRating as real) then false
      else true
    case Fixed(b) => b
  }

  /** `_on_property_changing`: every changing-listener, in order, must accept. */
  function AllAccept(ls: seq<Listener>, p: Prop, prior: Value, v: Value, currentYear: int): (ok: bool)
    ensures ok <==> forall i :: 0 <= i < |ls| ==> Verdict(ls[i].check, p, prior, v, currentYear)
    decreases |ls|
  {
    if |ls| == 0 then true
    else Verdict(ls[0].check, p, prior, v, currentYear) && AllAccept(ls[1..], p, prior, v, currentYear)
  }

  /** `_successfully_changed`: one notice per changed-listener, in registration order. */
  function Notify(ls: seq<Listener>, p: Prop): (ns: seq<Notice>)
    ensures |ns| == |ls|
    ensures forall i :: 0 <= i < |ls| ==> ns[i] == Notice(ls[i], p)
  {
    seq(|ls|, i requires 0 <= i < |ls| => Notice(ls[i], p))
  }

  function Get(f: Film, p: Prop): Value
  {
    match p
    case Title => f.title
    case Year => f.year
    case Rating => f.rating
  }

  /** Stores `v` in property `p`, touching nothing else. */
  function Put(f: Film, p: Prop, v: Value): (r: Film)
    ensures Get(r, p) == v
    ensures forall q :: q != p ==> Get(r, q) == Get(f, q)
    ensures r.changed == f.changed && r.changing == f.changing
  {
    match p
    case Title => f.(title := v)
    case Year => f.(year := v)
    case Rating => f.(rating := v)
  }

  /** A property setter: commit and notify when every changing-listener accepts,
      otherwise leave the film as it is and notify nobody. */
  function Set(f: Film, p: Prop, v: Value, currentYear: int): (r: (Film, seq<Notice>))
    ensures AllAccept(f.changing, p, Get(f, p), v, currentYear) ==> Get(r.0, p) == v && r.1 == Notify(f.changed, p)
    ensures !AllAccept(f.changing, p, Get(f, p), v, currentYear) ==> r.0 == f && r.1 == []
    ensures forall q :: q != p ==> Get(r.0, q) == Get(f, q)
    ensures r.0.changed == f.changed && r.0.changing == f.changing
  {
    if AllAccept(f.changing, p, Get(f, p), v, currentYear) then (Put(f, p, v), Notify(f.changed, p))
    else (f, [])
  }

  /** Assigning the same value twice leaves the film as one assignment does, since no
      listener's answer depends on the old value. */
  lemma SetTwice(f: Film, p: Prop, v: Value, currentYear: int)
    ensures var f1 := Set(f, p, v, currentYear).0; Set(f1, p, v, currentYear).0 == f1
  {
    var f1 := Set(f, p, v, currentYear).0;
    forall i | 0 <= i < |f.changing|
      ensures Verdict(f.changing[i].check, p, Get(f1, p), v, currentYear) == Verdict(f.changing[i].check, p, Get(f, p), v, currentYear)
    {
    }
    if AllAccept(f.changing, p, Get(f, p), v, currentYear) {
      assert Put(f1, p, v) == f1 by {
        match p
        case Title =>
        case Year =>
        case Rating =>
      }
    }
  }

  /** The film the constructor starts from: no listeners and every property `None`. */
  function Blank(): Film
  {
    Film(NoValue, NoValue, NoValue, [], [])
  }

  /** The constructor: the three setters run before any listener can be registered. */
  function NewFilm(title: Value, year: Value, rating: Value, currentYear: int): (f: Film)
    ensures f == Film(title, year, rating, [], [])
  {
    var f1 := Set(Blank(), Title, title, currentYear).0;
    var f2 := Set(f1, Year, year, currentYear).0;
    Set(f2, Rating, rating, currentYear).0
  }

  /** Position of the first occurrence of `x`. */
  function IndexOf(s: seq<Listener>, x: Listener): (i: nat)
    requires x in s
    ensures i < |s| && s[i] == x && x !in s[..i]
    decreases |s|
  {
    if s[0] == x then 0
    else
      var j := IndexOf(s[1..], x);
      assert s[..j + 1] == [s[0]] + s[1..][..j];
      1 + j
  }

  /** `list.remove`: drop the first occurrence of `x`. */
  function RemoveFirst(s: seq<Listener>, x: Listener): (r: seq<Listener>)
    requires x in s
    ensures |r| == |s| - 1
    ensures multiset(r) == multiset(s) - multiset{x}
    ensures r == s[..IndexOf(s, x)] + s[IndexOf(s, x) + 1..]
  {
    var i := IndexOf(s, x);
    assert s == s[..i] + [x] + s[i + 1..];
    s[..i] + s[i + 1..]
  }

  /** No listener is registered twice. */
  predicate NoDuplicates(s: seq<Listener>)
  {
    forall i, j :: 0 <= i < j < |s| ==> s[i] != s[j]
  }

  /** Appends `l` unless it is already present. */
  function AddOnce(s: seq<Listener>, l: Listener): (r: seq<Listener>)
    ensures l in r
    ensures forall x :: x in r <==> x in s || x == l
    ensures l in s ==> r == s
    ensures l !in s ==> r == s + [l]
    ensures NoDuplicates(s) ==> NoDuplicates(r)
  {
    if l in s then s else s + [l]
  }

  /** Removes `l` if it is present. */
  function RemoveIfPresent(s: seq<Listener>, l: Listener): (r: seq<Listener>)
    ensures l !in s ==> r == s
    ensures l in s ==> multiset(r) == multiset(s) - multiset{l}
    ensures l in s ==> r == s[..IndexOf(s, l)] + s[IndexOf(s, l) + 1..]
    ensures NoDuplicates(s) ==> l !in r && forall x :: x != l ==> (x in r <==> x in s)
  {
    if l in s then RemoveFirst(s, l) else s
  }

  function AddChangedListener(f: Film, l: Listener): (r: Film)
    ensures l in r.changed && r.changing == f.changing
    ensures l in f.changed ==> r.changed == f.changed
    ensures l !in f.changed ==> r.changed == f.changed + [l]
    ensures NoDuplicates(f.changed) ==> NoDuplicates(r.changed)
    ensures r.title == f.title && r.year == f.year && r.rating == f.rating
  {
    f.(changed := AddOnce(f.changed, l))
  }

  function RemoveChangedListener(f: Film, l: Listener): (r: Film)
    ensures l !in f.changed ==> r == f
    ensures l in f.changed ==> r.changed == f.changed[..IndexOf(f.changed, l)] + f.changed[IndexOf(f.changed, l) + 1..]
    ensures NoDuplicates(f.changed) ==> l !in r.changed
    ensures r.changing == f.changing && r.title == f.title && r.year == f.year && r.rating == f.rating
  {
    f.(changed := RemoveIfPresent(f.changed, l))
  }

  function AddChangingListener(f: Film, l: Listener): (r: Film)
    ensures l in r.changing && r.changed == f.changed
    ensures l in f.changing ==> r.changing == f.changing
    ensures l !in f.changing ==> r.changing == f.changing + [l]
    ensures NoDuplicates(f.changing) ==> NoDuplicates(r.changing)
    ensures r.title == f.title && r.year == f.year && r.rating == f.rating
  {
    f.(changing := AddOnce(f.changing, l))
  }

  /** `remove_property_changing_listener` as written: membership is tested in the changed
      list but the listener is removed from the changing list. */
  function RemoveChangingListenerAsWritten(f: Film, l: Listener): (r: Result<Film, Fault>)
    ensures l !in f.changed ==> r == Success(f)
    ensures l in f.changed && l !in f.changing ==> r == Failure(NotInList)
    ensures l in f.changed && l in f.changing ==> r.Success? && multiset(r.value.changing) == multiset(f.changing) - multiset{l}
    ensures l in f.changed && l in f.changing ==>
      r == Success(f.(changing := f.changing[..IndexOf(f.changing, l)] + f.changing[IndexOf(f.changing, l) + 1..]))
  {
    if l in f.changed then
      if l in f.changing then Success(f.(changing := RemoveFirst(f.changing, l)))
      else Failure(NotInList)
    else Success(f)
  }

  /** The intended `remove_property_changing_listener`: membership is tested in the list it removes from. */
  function RemoveChangingListener(f: Film, l: Listener): (r: Film)
    ensures l !in f.changing ==> r == f
    ensures l in f.changing ==> r.changing == f.changing[..IndexOf(f.changing, l)] + f.changing[IndexOf(f.changing, l) + 1..]
    ensures NoDuplicates(f.changing) ==> l !in r.changing
    ensures r.changed == f.changed && r.title == f.title && r.year == f.year && r.rating == f.rating
  {
    f.(changing := RemoveIfPresent(f.changing, l))
  }

  /** Adding a new listener and removing it again gives back the same list. */
  lemma AddThenRemove(s: seq<Listener>, l: Listener)
    requires l !in s
    ensures RemoveIfPresent(AddOnce(s, l), l) == s
  {
    var r := s + [l];
    assert r[..|s|] == s;
    assert RemoveFirst(r, l) == s by {
      var i :| 0 <= i < |r| && r[i] == l && l !in r[..i] && RemoveFirst(r, l) == r[..i] + r[i + 1..];
      assert i == |s|;
    }
  }

  /** Registering the same listener twice has the effect of registering it once. */
  lemma AddIdempotent(s: seq<Listener>, l: Listener)
    ensures AddOnce(AddOnce(s, l), l) == AddOnce(s, l)
  {
  }

  /** With all three stock validators registered, a setter commits exactly the values
      that pass the validator of its property. */
  lemma {:induction false} GuardedSet(f: Film, p: Prop, v: Value, currentYear: int)
    requires forall i :: 0 <= i < |f.changing| ==> !f.changing[i].check.Fixed?
    requires exists i :: 0 <= i < |f.changing| && f.changing[i].check == TitleCheck
    requires exists i :: 0 <= i < |f.changing| && f.changing[i].check == YearCheck
    requires exists i :: 0 <= i < |f.changing| && f.changing[i].check == RatingCheck
    ensures Get(Set(f, p, v, currentYear).0, p) == v <==> (TitleOk(p, v) && YearOk(p, v, currentYear) && RatingOk(p, v)) || Get(f, p) == v
    ensures Set(f, p, v, currentYear).1 != [] ==> TitleOk(p, v) && YearOk(p, v, currentYear) && RatingOk(p, v)
  {
    var ok := TitleOk(p, v) && YearOk(p, v, currentYear) && RatingOk(p, v);
    if ok {
      forall i | 0 <= i < |f.changing| ensures Verdict(f.changing[i].check, p, Get(f, p), v, currentYear) {
      }
    } else {
      var i :| 0 <= i < |f.changing| && f.changing[i].check ==
        (if !TitleOk(p, v) then TitleCheck else if !YearOk(p, v, currentYear) then YearCheck else RatingCheck);
      assert !Verdict(f.changing[i].check, p, Get(f, p), v, currentYear);
    }
  }

  /** The constructor never validates: a film can start with an empty title, a year before
      1896 and a rating above 10, all of which the setters would later refuse. */
  lemma ConstructorSkipsValidation(currentYear: int)
    ensures var f := NewFilm(Str(""), Int(1369), Int(12), currentYear);
      && f.title == Str("") && f.year == Int(1369) && f.rating == Int(12)
      && !TitleOk(Title, f.title) && !YearOk(Year, f.year, currentYear) && !RatingOk(Rating, f.rating)
  {
  }

  const ConsoleLog: Listener := Listener(0, Fixed(true))
  const TitleValidator: Listener := Listener(1, TitleCheck)
  const YearValidator: Listener := Listener(2, YearCheck)
  const RatingValidator: Listener := Listener(3, RatingCheck)

  /** The demonstration film with a console log and the three validators registered. */
  function DemoFilm(currentYear: int): Film
  {
    var f0 := NewFilm(Str("Wolf from Wall Street"), Int(2013), Float(8.2), currentYear);
    var f1 := AddChangedListener(f0, ConsoleLog);
    AddChangingListener(AddChangingListener(AddChangingListener(f1, TitleValidator), YearValidator), RatingValidator)
  }

  lemma DemoFilmShape(currentYear: int)
    ensures DemoFilm(currentYear) == Film(Str("Wolf from Wall Street"), Int(2013), Float(8.2),
      [ConsoleLog], [TitleValidator, YearValidator, RatingValidator])
  {
    var f0 := NewFilm(Str("Wolf from Wall Street"), Int(2013), Float(8.2), currentYear);
    assert f0 == Film(Str("Wolf from Wall Street"), Int(2013), Float(8.2), [], []);
    assert AddOnce([], ConsoleLog) == [ConsoleLog];
    assert AddOnce([], TitleValidator) == [TitleValidator];
    assert TitleValidator != YearValidator;
    assert AddOnce([TitleValidator], YearValidator) == [TitleValidator, YearValidator];
    assert RatingValidator !in [TitleValidator, YearValidator];
    assert AddOnce([TitleValidator, YearValidator], RatingValidator) == [TitleValidator, YearValidator, RatingValidator];
  }

  /** The demonstration's bad assignments are all refused and leave the film unchanged. */
  lemma DemoRejects(currentYear: int)
    requires 2019 <= currentYear < 2077
    ensures var f := DemoFilm(currentYear);
      && Set(f, Title, Str(""), currentYear) == (f, [])
      && Set(f, Title, Int(123), currentYear) == (f, [])
      && Set(f, Year, Int(1369), currentYear) == (f, [])
      && Set(f, Year, Int(2077), currentYear) == (f, [])
      && Set(f, Rating, Int(-5), currentYear) == (f, [])
      && Set(f, Rating, Int(12), currentYear) == (f, [])
  {
    DemoFilmShape(currentYear);
  }

  /** The demonstration's good assignments are committed and reported to the log. */
  lemma DemoAccepts(currentYear: int)
    requires currentYear >= 2019
    ensures var f := DemoFilm(currentYear);
      && Set(f, Title, Str("Once upon a time... in Hollywood"), currentYear) == (f.(title := Str("Once upon a time... in Hollywood")), [Notice(ConsoleLog, Title)])
      && Set(f, Year, Int(2019), currentYear) == (f.(year := Int(2019)), [Notice(ConsoleLog, Year)])
      && Set(f, Rating, Int(10), currentYear) == (f.(rating := Int(10)), [Notice(ConsoleLog, Rating)])
  {
    DemoFilmShape(currentYear);
    var f := DemoFilm(currentYear);
    assert Notify(f.changed, Title) == [Notice(ConsoleLog, Title)];
    assert Notify(f.changed, Year) == [Notice(ConsoleLog, Year)];
    assert Notify(f.changed, Rating) == [Notice(ConsoleLog, Rating)];
  }

  /** As written, a validator that is registered only as a changing-listener cannot be
      removed, and a logger registered only as a changed-listener makes removal raise;
      the intended method removes the first and ignores the second. */
  lemma RemoveChangingScenario()
    ensures var tv, log := TitleValidator, ConsoleLog;
      var f := Film(NoValue, NoValue, NoValue, [log], [tv]);
      && RemoveChangingListenerAsWritten(f, tv) == Success(f)
      && RemoveChangingListenerAsWritten(f, log) == Failure(NotInList)
      && RemoveChangingListener(f, tv) == f.(changing := [])
      && RemoveChangingListener(f, log) == f
  {
    var tv, log := TitleValidator, ConsoleLog;
    assert tv !in [log];
    assert log !in [tv];
  }
}

=== FILE: snapshot.dfy ===
/**
 The persisted snapshot of the keyboard (`get_state` / `set_state`): the three
 globals, every binding as a class name plus its constructor arguments, and
 the two histories reduced to their key sequences.
 */
module Snapshot {
  import opened Wrappers
  import opened Commands
  import opened Bindings
  import opened Keyboard
  import opened KeyboardTraces

  /** A stored constructor argument: a string or an integer. */
  datatype Param = Text(s: string) | Number(n: int)

  /** A stored command: the name of its class and the record of its constructor arguments. */
  datatype Encoded = Encoded(cls: string, args: map<string, Param>)

  /** A stored binding; `None` stands for a key bound to nothing. */
  datatype StoredBinding = StoredBinding(key: string, data: Option<Encoded>)

  /** The stored record. A missing `text`, `volume` or `media_player` field is `None`;
      a missing binding table or history reads as empty, as `dict.get` with a default does. */
  datatype Snapshot = Snapshot(
    text: Option<string>,
    volume: Option<int>,
    media: Option<bool>,
    keyBinds: seq<StoredBinding>,
    back: seq<string>,
    forward: seq<string>)

  const KeyClass: string := "KeyCommand"
  const VolumeUpClass: string := "VolumeUpCommand"
  const VolumeDownClass: string := "VolumeDownCommand"
  const MediaClass: string := "MediaPlayerCommand"

  /** Why a stored command could not be rebuilt: no command class has that name, or its
      constructor refuses the stored arguments. */
  datatype DecodeError = UnknownClass(name: string) | BadArguments(name: string)

  /** A command as its class name and attribute dictionary. */
  function Encode(c: Cmd): (e: Encoded)
    ensures e.cls in {KeyClass, VolumeUpClass, VolumeDownClass, MediaClass}
  {
    match c
    case KeyCmd(ch) => Encoded(KeyClass, map["char" := Text(ch)])
    case VolumeUp(a) => Encoded(VolumeUpClass, map["amount" := Number(a)])
    case VolumeDown(a) => Encoded(VolumeDownClass, map["amount" := Number(a)])
    case MediaPlayer => Encoded(MediaClass, map[])
  }

  /** Rebuilds a volume command: the amount is optional and defaults to 20. */
  function VolumeArgs(e: Encoded): Option<int>
  {
    if e.args == map[] then Some(DefaultAmount)
    else if e.args.Keys == {"amount"} && e.args["amount"].Number? then Some(e.args["amount"].n)
    else None
  }

  /** Looks the class up by name and calls its constructor with the stored arguments. */
  function Decode(e: Encoded): (r: Result<Cmd, DecodeError>)
    ensures e.cls !in {KeyClass, VolumeUpClass, VolumeDownClass, MediaClass} ==> r == Failure(UnknownClass(e.cls))
    ensures e.cls == VolumeUpClass && e.args == map[] ==> r == Success(VolumeUp(DefaultAmount))
    ensures e.cls == VolumeDownClass && e.args == map[] ==> r == Success(VolumeDown(DefaultAmount))
    ensures r.Success? ==> Encode(r.value) == e || (e.args == map[] && e.cls in {VolumeUpClass, VolumeDownClass})
    ensures r.Success? ==> WellFormed(r.value) || e.cls == KeyClass
  {
    if e.cls == KeyClass then
      if e.args.Keys == {"char"} && e.args["char"].Text? then Success(KeyCmd(e.args["char"].s))
      else Failure(BadArguments(e.cls))
    else if e.cls == VolumeUpClass then
      match VolumeArgs(e)
      case Some(a) => Success(VolumeUp(a))
      case None => Failure(BadArguments(e.cls))
    else if e.cls == VolumeDownClass then
      match VolumeArgs(e)
      case Some(a) => Success(VolumeDown(a))
      case None => Failure(BadArguments(e.cls))
    else if e.cls == MediaClass then
      if e.args == map[] then Success(MediaPlayer) else Failure(BadArguments(e.cls))
    else Failure(UnknownClass(e.cls))
  }

  /** Every command survives being stored: the class name and arguments rebuild it exactly. */
  lemma DecodeEncode(c: Cmd)
    ensures Decode(Encode(c)) == Success(c)
  {
    match c
    case KeyCmd(ch) =>
      assert Encode(c).args.Keys == {"char"};
    case VolumeUp(a) =>
      assert Encode(c).args.Keys == {"amount"};
      assert Encode(c).args != map[];
    case VolumeDown(a) =>
      assert Encode(c).args.Keys == {"amount"};
      assert Encode(c).args != map[];
    case MediaPlayer =>
  }

  function EncodeBinding(b: Binding): StoredBinding
  {
    StoredBinding(b.key, if b.cmd.None? then None else Some(Encode(b.cmd.value)))
  }

  function EncodeTable(t: Table): (s: seq<StoredBinding>)
    ensures |s| == |t|
    ensures forall i :: 0 <= i < |t| ==> s[i] == EncodeBinding(t[i])
  {
    seq(|t|, i requires 0 <= i < |t| => EncodeBinding(t[i]))
  }

  function HistoryKeys(es: seq<Entry>): (ks: seq<string>)
    ensures |ks| == |es|
    ensures forall i :: 0 <= i < |es| ==> ks[i] == es[i].key
  {
    seq(|es|, i requires 0 <= i < |es| => es[i].key)
  }

  /** A stored binding that names a command the decoder rejects. */
  predicate Undecodable(b: StoredBinding)
  {
    b.data.Some? && Decode(b.data.value).Failure?
  }

  /** Rebuilding the table stops at the first undecodable binding, keeping what was rebuilt so far. */
  datatype TableResult = Decoded(table: Table) | Stopped(partial: Table, error: DecodeError)

  /** Assigns each stored binding in turn into `acc`, as `set_state`'s loop does. */
  function DecodeTable(acc: Table, bs: seq<StoredBinding>): (r: TableResult)
    ensures r.Decoded? <==> forall i :: 0 <= i < |bs| ==> !Undecodable(bs[i])
    decreases |bs|
  {
    if |bs| == 0 then Decoded(acc)
    else
      var b := bs[0];
      var next := if b.data.None? then Success(None) else
        match Decode(b.data.value)
        case Failure(err) => Failure(err)
        case Success(c) => Success(Some(c));
      if next.Failure? then Stopped(acc, next.error)
      else
        var r := DecodeTable(Bind(acc, b.key, next.value), bs[1..]);
        assert forall i :: 1 <= i < |bs| ==> bs[1..][i - 1] == bs[i];
        r
  }

  lemma PrefixTail(bs: seq<StoredBinding>, j: nat)
    requires j < |bs| - 1
    ensures bs[..j + 1][0] == bs[0] && bs[..j + 1][1..] == bs[1..][..j]
  {
  }

  /** A failed rebuild stops at an undecodable binding, and what it kept is exactly what
      rebuilding the bindings before that one produces. */
  lemma {:induction false} DecodeTableStops(acc: Table, bs: seq<StoredBinding>)
    requires DecodeTable(acc, bs).Stopped?
    ensures exists i :: 0 <= i < |bs| && Undecodable(bs[i]) && DecodeTable(acc, bs[..i]) == Decoded(DecodeTable(acc, bs).partial)
    decreases |bs|
  {
    var b := bs[0];
    assert bs[..0] == [];
    if !Undecodable(b) {
      var next := if b.data.None? then None else Some(Decode(b.data.value).value);
      var acc' := Bind(acc, b.key, next);
      assert DecodeTable(acc, bs) == DecodeTable(acc', bs[1..]);
      DecodeTableStops(acc', bs[1..]);
      var j :| 0 <= j < |bs[1..]| && Undecodable(bs[1..][j]) && DecodeTable(acc', bs[1..][..j]) == Decoded(DecodeTable(acc', bs[1..]).partial);
      PrefixTail(bs, j);
      assert DecodeTable(acc, bs[..j + 1]) == DecodeTable(acc', bs[1..][..j]);
      assert Undecodable(bs[j + 1]) by {
        assert bs[1..][j] == bs[j + 1];
      }
    } else {
      assert DecodeTable(acc, bs[..0]) == Decoded(acc);
    }
  }

  /** The command a decodable stored binding stands for. */
  function Restore(b: StoredBinding): Option<Cmd>
    requires !Undecodable(b)
  {
    if b.data.None? then None else Some(Decode(b.data.value).value)
  }

  /** The stored bindings, each rebuilt in place. */
  function Rebuilt(bs: seq<StoredBinding>): (t: Table)
    requires forall i :: 0 <= i < |bs| ==> !Undecodable(bs[i])
  {
    seq(|bs|, i requires 0 <= i < |bs| && !Undecodable(bs[i]) => Binding(bs[i].key, Restore(bs[i])))
  }

  lemma RebuiltCons(acc: Table, bs: seq<StoredBinding>)
    requires |bs| > 0 && forall i :: 0 <= i < |bs| ==> !Undecodable(bs[i])
    ensures acc + Rebuilt(bs) == (acc + [Binding(bs[0].key, Restore(bs[0]))]) + Rebuilt(bs[1..])
  {
    assert Rebuilt(bs) == [Binding(bs[0].key, Restore(bs[0]))] + Rebuilt(bs[1..]);
  }

  /** When every stored binding decodes and no key repeats, rebuilding after `acc` appends
      each stored key with its decoded command, in stored order. */
  lemma {:induction false} DecodeTableContents(acc: Table, bs: seq<StoredBinding>)
    requires forall i :: 0 <= i < |bs| ==> !Undecodable(bs[i])
    requires UniqueKeys(acc + Rebuilt(bs))
    ensures DecodeTable(acc, bs) == Decoded(acc + Rebuilt(bs))
    decreases |bs|
  {
    if |bs| == 0 {
      assert acc + Rebuilt(bs) == acc;
    } else {
      var b := bs[0];
      var nb := Binding(b.key, Restore(b));
      RebuiltCons(acc, bs);
      var acc' := acc + [nb];
      assert b.key !in Keys(acc) by {
        assert Keys(acc + Rebuilt(bs))[|acc|] == b.key;
        assert forall i :: 0 <= i < |acc| ==> Keys(acc + Rebuilt(bs))[i] == Keys(acc)[i];
      }
      assert Bind(acc, b.key, Restore(b)) == acc';
      assert forall i :: 0 <= i < |bs[1..]| ==> !Undecodable(bs[1..][i]) by {
        assert forall i :: 0 <= i < |bs[1..]| ==> bs[1..][i] == bs[i + 1];
      }
      assert DecodeTable(acc, bs) == DecodeTable(acc', bs[1..]);
      DecodeTableContents(acc', bs[1..]);
    }
  }

  /** Re-links each stored history key to the command now bound to it, dropping keys
      that are absent or bound to nothing. */
  function Rehydrate(t: Table, keys: seq<string>): (es: seq<Entry>)
    ensures |es| <= |keys|
    ensures forall i :: 0 <= i < |es| ==> es[i].key in keys && Bound(t, es[i].key) == Some(es[i].cmd)
    ensures forall k :: k in keys && Bound(t, k).None? ==> forall i :: 0 <= i < |es| ==> es[i].key != k
    ensures HistoryKeys(es) == BoundKeys(t, keys)
    ensures (forall i :: 0 <= i < |keys| ==> Bound(t, keys[i]).Some?) ==> HistoryKeys(es) == keys
  {
    BoundKeysAll(t, keys);
    if |keys| == 0 then []
    else
      var rest := Rehydrate(t, keys[1..]);
      match Bound(t, keys[0])
      case None => rest
      case Some(c) =>
        HistoryKeysCons(Entry(keys[0], c), rest);
        [Entry(keys[0], c)] + rest
  }

  lemma HistoryKeysCons(e: Entry, es: seq<Entry>)
    ensures HistoryKeys([e] + es) == [e.key] + HistoryKeys(es)
  {
  }

  /** The stored keys, in order, that are bound to a command in `t`. */
  function BoundKeys(t: Table, keys: seq<string>): (ks: seq<string>)
    decreases |keys|
  {
    if |keys| == 0 then []
    else (if Bound(t, keys[0]).Some? then [keys[0]] else []) + BoundKeys(t, keys[1..])
  }

  /** When every stored key is bound, none is dropped. */
  lemma {:induction false} BoundKeysAll(t: Table, keys: seq<string>)
    ensures (forall i :: 0 <= i < |keys| ==> Bound(t, keys[i]).Some?) ==> BoundKeys(t, keys) == keys
    decreases |keys|
  {
    if |keys| > 0 && forall i :: 0 <= i < |keys| ==> Bound(t, keys[i]).Some? {
      assert forall i :: 0 <= i < |keys| - 1 ==> keys[1..][i] == keys[i + 1];
      BoundKeysAll(t, keys[1..]);
      assert keys == [keys[0]] + keys[1..];
    }
  }

  /** `get_state`: the whole keyboard as a storable record. */
  function GetState(m: Machine): (s: Snapshot)
    ensures s.text == Some(m.g.text) && s.volume == Some(m.g.volume) && s.media == Some(m.g.media)
    ensures |s.keyBinds| == |m.binds| && |s.back| == |m.back| && |s.forward| == |m.forward|
  {
    Snapshot(Some(m.g.text), Some(m.g.volume), Some(m.g.media),
      EncodeTable(m.binds), HistoryKeys(m.back), HistoryKeys(m.forward))
  }

  /** `set_state` as written: the globals are assigned one by one and the table is cleared
      before any stored binding is decoded, so a failure part-way leaves a mix of old and
      new state. The boolean is the returned success flag. */
  function SetState(m: Machine, s: Snapshot): (r: (Machine, bool))
    ensures r.1 <==> s.text.Some? && s.volume.Some? && s.media.Some? && forall i :: 0 <= i < |s.keyBinds| ==> !Undecodable(s.keyBinds[i])
    ensures s.text.None? ==> r.0 == m
    ensures s.text.Some? ==> r.0.g.text == s.text.value
    ensures s.volume.Some? && s.text.Some? ==> r.0.g.volume == s.volume.value
    ensures !r.1 ==> r.0.back == m.back && r.0.forward == m.forward
    ensures r.1 ==> r.0.g == Globals(s.text.value, s.volume.value, s.media.value)
    ensures r.1 && (forall i :: 0 <= i < |s.back| ==> Bound(r.0.binds, s.back[i]).Some?) ==> HistoryKeys(r.0.back) == s.back
    ensures s.text.None? || s.volume.None? || s.media.None? ==>
      r.0.binds == m.binds && r.0.back == m.back && r.0.forward == m.forward && r.0.g.media == m.g.media
    ensures s.text.None? || s.volume.None? ==> r.0.g.volume == m.g.volume
    ensures s.text.Some? && s.volume.Some? && s.media.Some? && DecodeTable([], s.keyBinds).Stopped? ==>
      && r.0.g == Globals(s.text.value, s.volume.value, s.media.value)
      && r.0.binds == DecodeTable([], s.keyBinds).partial
    ensures r.1 ==> DecodeTable([], s.keyBinds) == Decoded(r.0.binds)
    ensures r.1 ==> r.0.back == Rehydrate(r.0.binds, s.back) && r.0.forward == Rehydrate(r.0.binds, s.forward)
  {
    if s.text.None? then (m, false)
    else if s.volume.None? then (m.(g := m.g.(text := s.text.value)), false)
    else if s.media.None? then (m.(g := m.g.(text := s.text.value, volume := s.volume.value)), false)
    else
      var g := Globals(s.text.value, s.volume.value, s.media.value);
      match DecodeTable([], s.keyBinds)
      case Stopped(partial, _) => (Machine(g, partial, m.back, m.forward), false)
      case Decoded(t) => (Machine(g, t, Rehydrate(t, s.back), Rehydrate(t, s.forward)), true)
  }

  /** A successful `set_state` from a record whose stored keys are distinct holds exactly the
      stored bindings, each decoded, in stored order. */
  lemma SetStateBindings(m: Machine, s: Snapshot)
    requires SetState(m, s).1
    requires UniqueKeys(Rebuilt(s.keyBinds))
    ensures SetState(m, s).0.binds == Rebuilt(s.keyBinds)
  {
    assert [] + Rebuilt(s.keyBinds) == Rebuilt(s.keyBinds);
    DecodeTableContents([], s.keyBinds);
  }

  /** Storing a table with distinct keys and assigning it back, after `acc`, appends it unchanged. */
  lemma {:induction false} TableRoundTrip(acc: Table, t: Table)
    requires UniqueKeys(acc + t)
    ensures DecodeTable(acc, EncodeTable(t)) == Decoded(acc + t)
    decreases |t|
  {
    if |t| == 0 {
      assert acc + t == acc;
    } else {
      var b := t[0];
      var acc' := acc + [b];
      assert acc + t == acc' + t[1..];
      assert b.key !in Keys(acc) by {
        assert Keys(acc + t)[|acc|] == b.key;
        assert forall i :: 0 <= i < |acc| ==> Keys(acc + t)[i] == Keys(acc)[i];
      }
      if b.cmd.Some? {
        DecodeEncode(b.cmd.value);
      }
      assert Bind(acc, b.key, b.cmd) == acc';
      assert EncodeTable(t)[1..] == EncodeTable(t[1..]);
      TableRoundTrip(acc', t[1..]);
    }
  }

  /** `set_state(get_state())` restores the globals and every binding with its position,
      and rebuilds each history from its keys through the bindings. */
  lemma SnapshotRoundTrip(m: Machine)
    requires UniqueKeys(m.binds)
    ensures SetState(m, GetState(m)) ==
      (Machine(m.g, m.binds, Rehydrate(m.binds, HistoryKeys(m.back)), Rehydrate(m.binds, HistoryKeys(m.forward))), true)
  {
    assert [] + m.binds == m.binds;
    TableRoundTrip([], m.binds);
  }

  /** Every history entry still runs the command its key is bound to. */
  predicate Coherent(m: Machine)
  {
    && UniqueKeys(m.binds)
    && (forall i :: 0 <= i < |m.back| ==> Bound(m.binds, m.back[i].key) == Some(m.back[i].cmd))
    && (forall i :: 0 <= i < |m.forward| ==> Bound(m.binds, m.forward[i].key) == Some(m.forward[i].cmd))
  }

  lemma {:induction false} RehydrateCoherent(t: Table, es: seq<Entry>)
    requires forall i :: 0 <= i < |es| ==> Bound(t, es[i].key) == Some(es[i].cmd)
    ensures Rehydrate(t, HistoryKeys(es)) == es
    decreases |es|
  {
    if |es| > 0 {
      assert HistoryKeys(es)[1..] == HistoryKeys(es[1..]);
      RehydrateCoherent(t, es[1..]);
      assert es == [es[0]] + es[1..];
    }
  }

  /** For a coherent keyboard the round trip through the snapshot is the identity. */
  lemma SnapshotIdentity(m: Machine)
    requires Coherent(m)
    ensures SetState(m, GetState(m)) == (m, true)
  {
    SnapshotRoundTrip(m);
    RehydrateCoherent(m.binds, m.back);
    RehydrateCoherent(m.binds, m.forward);
  }

  lemma UndoKeepsCoherent(m: Machine)
    requires Coherent(m) && |m.back| > 0
    ensures Coherent(UndoStep(m).value)
  {
    var r := UndoStep(m).value;
    var e := m.back[|m.back| - 1];
    assert forall i :: 0 <= i < |r.back| ==> r.back[i] == m.back[i];
    assert forall i :: 0 <= i < |m.forward| ==> r.forward[i] == m.forward[i];
    assert r.forward[|m.forward|] == e;
  }

  lemma RedoKeepsCoherent(m: Machine)
    requires Coherent(m) && |m.forward| > 0
    ensures Coherent(RedoStep(m).value)
  {
    var r := RedoStep(m).value;
    var e := m.forward[|m.forward| - 1];
    assert forall i :: 0 <= i < |r.forward| ==> r.forward[i] == m.forward[i];
    assert forall i :: 0 <= i < |m.back| ==> r.back[i] == m.back[i];
    assert r.back[|m.back|] == e;
  }

  lemma DispatchKeepsCoherent(m: Machine, k: string, c: Cmd)
    requires Coherent(m) && Bound(m.binds, k) == Some(c)
    ensures Coherent(Dispatch(m, k, c))
  {
    var r := Dispatch(m, k, c);
    assert forall i :: 0 <= i < |m.back| ==> r.back[i] == m.back[i];
    assert r.back[|m.back|] == Entry(k, c);
  }

  /** Binding a key that no entry can be using leaves every entry's command in place. */
  lemma AutoBindKeepsCoherent(m: Machine, k: string, c: Cmd)
    requires Coherent(m) && Bound(m.binds, k).None?
    ensures Coherent(KeyBind(m, k, Some(c)))
  {
    BindKeepsUnique(m.binds, k, Some(c));
    var r := KeyBind(m, k, Some(c));
    forall i | 0 <= i < |m.back| ensures Bound(r.binds, m.back[i].key) == Some(m.back[i].cmd) {
      assert m.back[i].key != k;
    }
    forall i | 0 <= i < |m.forward| ensures Bound(r.binds, m.forward[i].key) == Some(m.forward[i].cmd) {
      assert m.forward[i].key != k;
    }
  }

  /** A press keeps the keyboard coherent: a new entry runs its key's binding, an
      automatic binding only touches a key no entry uses, and undo and redo only move entries. */
  lemma PressKeepsCoherent(m: Machine, k: string)
    requires Coherent(m)
    requires Press(m, k).Success?
    ensures Coherent(Press(m, k).value.0)
  {
    if k == UndoKey {
      UndoKeepsCoherent(m);
    } else if k == RedoKey {
      RedoKeepsCoherent(m);
    } else if Bound(m.binds, k).None? && |k| == 1 {
      var m' := KeyBind(m, k, Some(KeyCmd(k)));
      AutoBindKeepsCoherent(m, k, KeyCmd(k));
      DispatchKeepsCoherent(m', k, KeyCmd(k));
    } else if Bound(m.binds, k).Some? {
      DispatchKeepsCoherent(m, k, Bound(m.binds, k).value);
    }
  }

  /** Any run of presses from a coherent keyboard ends coherent. */
  lemma {:induction false} RunKeysKeepCoherent(m: Machine, ks: seq<string>)
    requires Coherent(m)
    requires RunKeys(m, ks).Success?
    ensures Coherent(RunKeys(m, ks).value)
    decreases |ks|
  {
    if |ks| > 0 {
      PressKeepsCoherent(m, ks[0]);
      RunKeysKeepCoherent(Press(m, ks[0]).value.0, ks[1..]);
    }
  }

  /** After any successful run of presses from a fresh keyboard, storing and restoring
      the keyboard gives it back unchanged. */
  lemma SnapshotAfterPresses(ks: seq<string>)
    requires RunKeys(Fresh(), ks).Success?
    ensures var m := RunKeys(Fresh(), ks).value; SetState(m, GetState(m)) == (m, true)
  {
    RunKeysKeepCoherent(Fresh(), ks);
    SnapshotIdentity(RunKeys(Fresh(), ks).value);
  }

  /** `set_state` made atomic: it changes nothing unless every field is present and
      every stored binding decodes, and then does what `set_state` does. */
  function SetStateAtomic(m: Machine, s: Snapshot): (r: (Machine, bool))
    ensures r.1 <==> s.text.Some? && s.volume.Some? && s.media.Some? && forall i :: 0 <= i < |s.keyBinds| ==> !Undecodable(s.keyBinds[i])
    ensures !r.1 ==> r.0 == m
    ensures r.1 ==> r.0.g == Globals(s.text.value, s.volume.value, s.media.value)
    ensures r.1 ==> DecodeTable([], s.keyBinds) == Decoded(r.0.binds)
    ensures r.1 ==> r.0.back == Rehydrate(r.0.binds, s.back) && r.0.forward == Rehydrate(r.0.binds, s.forward)
  {
    if s.text.None? || s.volume.None? || s.media.None? then (m, false)
    else
      match DecodeTable([], s.keyBinds)
      case Stopped(_, _) => (m, false)
      case Decoded(t) =>
        (Machine(Globals(s.text.value, s.volume.value, s.media.value), t, Rehydrate(t, s.back), Rehydrate(t, s.forward)), true)
  }

  /** The atomic variant agrees with `set_state` on success and on the round trip. */
  lemma AtomicAgreesOnSuccess(m: Machine, s: Snapshot)
    ensures SetState(m, s).1 == SetStateAtomic(m, s).1
    ensures SetState(m, s).1 ==> SetStateAtomic(m, s) == SetState(m, s)
  {
  }

  /** A snapshot whose only binding names no command class: as written, `set_state` reports
      failure yet has already replaced the globals and emptied the binding table; the atomic
      variant leaves the keyboard as it was. */
  lemma PartialSetState()
    ensures var m := Machine(Globals("ab", 5, false), [Binding("a", Some(KeyCmd("a")))], [], []);
      var s := Snapshot(Some("x"), Some(7), Some(true), [StoredBinding("a", Some(Encoded("Bogus", map[])))], [], []);
      && SetState(m, s) == (Machine(Globals("x", 7, true), [], [], []), false)
      && SetStateAtomic(m, s) == (m, false)
  {
    var e := Encoded("Bogus", map[]);
    assert e.cls !in {KeyClass, VolumeUpClass, VolumeDownClass, MediaClass};
    assert Decode(e) == Failure(UnknownClass("Bogus"));
  }
}

=== FILE: users.dfy ===
/**
 The user repository: a JSON file of user records, modelled as the sequence of
 records it holds. Lookups return the first matching record; sign-up inserts
 only unused ids; update replaces the first record with the item's id.
 */
module Users {
  import opened Wrappers

  /** A user record. An optional field that was never given is `None`. */
  datatype User = User(id: int, name: string, login: string, password: string, email: Option<string>, address: Option<string>)

  /** The stored records in file order. */
  type Store = seq<User>

  /** `delete` as written raises: `KeyError` when some record is scanned, `TypeError` when
      the store is empty and the save is reached with an extra argument. */
  datatype Fault = KeyError | TypeError

  /** No id is stored twice. */
  predicate UniqueIds(s: Store)
  {
    forall i, j :: 0 <= i < j < |s| ==> s[i].id != s[j].id
  }

  predicate HasId(s: Store, id: int)
  {
    exists i :: 0 <= i < |s| && s[i].id == id
  }

  /** Position of the first record with this id, or `|s|` when there is none. */
  function IdIndex(s: Store, id: int): (i: nat)
    ensures i <= |s|
    ensures i < |s| ==> s[i].id == id
    ensures forall j :: 0 <= j < i ==> s[j].id != id
    decreases |s|
  {
    if |s| == 0 then 0
    else if s[0].id == id then 0
    else 1 + IdIndex(s[1..], id)
  }

  /** Position of the first record with this login, or `|s|` when there is none. */
  function LoginIndex(s: Store, login: string): (i: nat)
    ensures i <= |s|
    ensures i < |s| ==> s[i].login == login
    ensures forall j :: 0 <= j < i ==> s[j].login != login
    decreases |s|
  {
    if |s| == 0 then 0
    else if s[0].login == login then 0
    else 1 + LoginIndex(s[1..], login)
  }

  /** `get_all`: every record, in stored order. */
  function GetAll(s: Store): (r: Store)
    ensures |r| == |s| && forall i :: 0 <= i < |s| ==> r[i] == s[i]
    ensures forall id :: GetById(s, id).Some? ==> GetById(s, id).value in r
  {
    s
  }

  /** `get_by_id`: the first record with this id, if any. */
  function GetById(s: Store, id: int): (r: Option<User>)
    ensures r.None? <==> !HasId(s, id)
    ensures r.Some? ==> exists i :: 0 <= i < |s| && s[i] == r.value && r.value.id == id && forall j :: 0 <= j < i ==> s[j].id != id
  {
    var i := IdIndex(s, id);
    if i == |s| then None else Some(s[i])
  }

  /** `get_by_login`: the first record with this login, if any. */
  function GetByLogin(s: Store, login: string): (r: Option<User>)
    ensures r.None? <==> forall i :: 0 <= i < |s| ==> s[i].login != login
    ensures r.Some? ==> exists i :: 0 <= i < |s| && s[i] == r.value && r.value.login == login && forall j :: 0 <= j < i ==> s[j].login != login
  {
    var i := LoginIndex(s, login);
    if i == |s| then None else Some(s[i])
  }

  /** `sign_up`: append the record unless its id is already stored. */
  function SignUp(s: Store, u: User): (r: Store)
    ensures HasId(s, u.id) ==> r == s
    ensures !HasId(s, u.id) ==> r == s + [u]
    ensures UniqueIds(s) ==> UniqueIds(r)
  {
    if GetById(s, u.id).Some? then s else s + [u]
  }

  /** `add_by_list`: sign up each record in turn. */
  function AddByList(s: Store, us: seq<User>): (r: Store)
    ensures |s| <= |r| && r[..|s|] == s
    ensures forall i :: 0 <= i < |us| ==> HasId(r, us[i].id)
    ensures forall i :: |s| <= i < |r| ==> r[i] in us
    ensures forall i :: |s| <= i < |r| ==> !HasId(r[..i], r[i].id)
    ensures UniqueIds(s) ==> UniqueIds(r)
    decreases |us|
  {
    if |us| == 0 then s
    else
      var r := AddByList(SignUp(s, us[0]), us[1..]);
      SignUpThenAdd(s, us, r);
      r
  }

  /** What one sign-up followed by the rest of the list keeps and adds, given what the rest does. */
  lemma SignUpThenAdd(s: Store, us: seq<User>, r: Store)
    requires |us| > 0
    requires var s' := SignUp(s, us[0]);
      && |s'| <= |r| && r[..|s'|] == s'
      && (forall i :: 0 <= i < |us| - 1 ==> HasId(r, us[1..][i].id))
      && (forall i :: |s'| <= i < |r| ==> r[i] in us[1..])
      && (forall i :: |s'| <= i < |r| ==> !HasId(r[..i], r[i].id))
    ensures |s| <= |r| && r[..|s|] == s
    ensures forall i :: 0 <= i < |us| ==> HasId(r, us[i].id)
    ensures forall i :: |s| <= i < |r| ==> r[i] in us
    ensures forall i :: |s| <= i < |r| ==> !HasId(r[..i], r[i].id)
  {
    var s' := SignUp(s, us[0]);
    if |s'| > |s| {
      assert r[..|s|] == s && r[|s|] == us[0] && !HasId(s, us[0].id);
    }
    assert r[..|s|] == r[..|s'|][..|s|];
    assert HasId(s', us[0].id) by {
      if !HasId(s, us[0].id) {
        assert s'[|s|].id == us[0].id;
      }
    }
    assert HasId(r, us[0].id) by {
      var k :| 0 <= k < |s'| && s'[k].id == us[0].id;
      assert r[k] == s'[k];
    }
    forall i | 1 <= i < |us| ensures HasId(r, us[i].id) {
      assert us[i] == us[1..][i - 1];
    }
    forall i | |s| <= i < |r| ensures r[i] in us {
      if i < |s'| {
        assert r[i] == s'[i] == us[0];
      } else {
        assert r[i] in us[1..];
      }
    }
  }

  /** `update`: replace the first record carrying the item's id; without one, nothing changes. */
  function Update(s: Store, u: User): (r: Store)
    ensures |r| == |s|
    ensures !HasId(s, u.id) ==> r == s
    ensures HasId(s, u.id) ==> r[IdIndex(s, u.id)] == u
    ensures forall i :: 0 <= i < |s| && i != IdIndex(s, u.id) ==> r[i] == s[i]
    ensures UniqueIds(s) ==> UniqueIds(r)
  {
    var i := IdIndex(s, u.id);
    if i == |s| then s else s[i := u]
  }

  /** `delete` as written: the filter indexes each record by the builtin `id` function, which
      no record has as a key, and the save is called with one argument too many. */
  function DeleteAsWritten(s: Store, u: User): (r: Result<Store, Fault>)
    ensures r.Failure?
    ensures |s| > 0 <==> r == Failure(KeyError)
  {
    if |s| > 0 then Failure(KeyError) else Failure(TypeError)
  }

  /** The intended `delete`: keep every record whose id differs from the item's, in order. */
  function Delete(s: Store, u: User): (r: Store)
    ensures forall i :: 0 <= i < |r| ==> r[i].id != u.id && r[i] in s
    ensures forall i :: 0 <= i < |s| && s[i].id != u.id ==> s[i] in r
    ensures !HasId(r, u.id)
    ensures forall x :: multiset(r)[x] == if x.id == u.id then 0 else multiset(s)[x]
    decreases |s|
  {
    if |s| == 0 then []
    else
      ConsTail(s);
      if s[0].id == u.id then Delete(s[1..], u)
      else
        var rest := Delete(s[1..], u);
        assert forall i :: 1 <= i < |s| ==> s[i] == s[1..][i - 1];
        [s[0]] + rest
  }

  lemma ConsTail(s: Store)
    requires |s| > 0
    ensures [s[0]] + s[1..] == s && multiset(s) == multiset{s[0]} + multiset(s[1..])
  {
    assert s == [s[0]] + s[1..];
  }

  /** Deleting from two stores joined end to end is deleting from each: the kept records
      stay in their order. */
  lemma {:induction false} DeleteAppend(a: Store, b: Store, u: User)
    ensures Delete(a + b, u) == Delete(a, u) + Delete(b, u)
    decreases |a|
  {
    if |a| == 0 {
      assert a + b == b;
    } else {
      assert (a + b)[0] == a[0] && (a + b)[1..] == a[1..] + b;
      DeleteAppend(a[1..], b, u);
    }
  }

  /** After an update, looking the id up finds the new record, provided ids are unique. */
  lemma UpdateThenGet(s: Store, u: User)
    requires UniqueIds(s)
    requires HasId(s, u.id)
    ensures GetById(Update(s, u), u.id) == Some(u)
  {
    var r := Update(s, u);
    var i := IdIndex(s, u.id);
    assert IdIndex(r, u.id) == i by {
      assert forall j :: 0 <= j < i ==> r[j] == s[j];
    }
  }

  /** Signing up a new id and deleting it again gives the store back. */
  lemma DeleteUndoesSignUp(s: Store, u: User)
    requires !HasId(s, u.id)
    ensures Delete(SignUp(s, u), u) == s
  {
    DeleteAppended(s, u);
  }

  lemma {:induction false} DeleteAppended(s: Store, u: User)
    requires !HasId(s, u.id)
    ensures Delete(s + [u], u) == s
  {
    DeleteAppend(s, [u], u);
    assert [u][1..] == [];
    DeleteAbsent(s, u);
    assert s + [] == s;
  }

  /** Deleting an id no record has keeps the store as it is. */
  lemma {:induction false} DeleteAbsent(s: Store, u: User)
    requires !HasId(s, u.id)
    ensures Delete(s, u) == s
    decreases |s|
  {
    if |s| > 0 {
      assert !HasId(s[1..], u.id) by {
        assert forall j :: 0 <= j < |s[1..]| ==> s[1..][j] == s[j + 1];
      }
      DeleteAbsent(s[1..], u);
      assert s[0].id != u.id;
      ConsTail(s);
    }
  }

  /** Adding a list in two parts is adding the first part, then the second; a list of one
      record is a single sign-up. */
  lemma {:induction false} AddByListAppend(s: Store, a: seq<User>, b: seq<User>)
    ensures AddByList(s, a + b) == AddByList(AddByList(s, a), b)
    ensures |a| == 1 ==> AddByList(s, a) == SignUp(s, a[0])
    decreases |a|
  {
    if |a| == 0 {
      assert a + b == b;
    } else {
      assert (a + b)[0] == a[0] && (a + b)[1..] == a[1..] + b;
      AddByListAppend(SignUp(s, a[0]), a[1..], b);
    }
  }

  /** Adding the same list twice adds nothing the second time. */
  lemma {:induction false} AddByListTwice(s: Store, us: seq<User>)
    ensures AddByList(AddByList(s, us), us) == AddByList(s, us)
  {
    var r := AddByList(s, us);
    AddByListPresent(r, us);
  }

  /** Adding records whose ids are all present already leaves the store unchanged. */
  lemma {:induction false} AddByListPresent(s: Store, us: seq<User>)
    requires forall i :: 0 <= i < |us| ==> HasId(s, us[i].id)
    ensures AddByList(s, us) == s
    decreases |us|
  {
    if |us| > 0 {
      assert SignUp(s, us[0]) == s;
      assert forall i :: 0 <= i < |us[1..]| ==> us[1..][i] == us[i + 1];
      AddByListPresent(s, us[1..]);
    }
  }

  /** Signing up lists the new record after all the old ones. */
  lemma GetAllAfterSignUp(s: Store, u: User)
    requires !HasId(s, u.id)
    ensures GetAll(SignUp(s, u)) == GetAll(s) + [u]
  {
  }

  /** The demonstration's two users, added by list, then a third signed up on its own. */
  function DemoUsers(): seq<User>
  {
    [User(0, "Matthew Shtogrin", "JankFank", "qwerty12345", Some("iam@jankfank.ru"), None),
     User(1, "Mikhail Vereshagin", "Boss", "bfu4life", None, None)]
  }

  /** Adding the demonstration's two users to an empty store stores both, in order. */
  lemma DemoAdded()
    ensures AddByList([], DemoUsers()) == DemoUsers()
  {
    var us := DemoUsers();
    assert us == [us[0]] + [us[1]];
    AddByListAppend([], [us[0]], [us[1]]);
    assert SignUp([], us[0]) == [us[0]];
    AddByListAppend([us[0]], [us[1]], []);
    assert !HasId([us[0]], us[1].id);
  }

  /** The demonstration: adding the two users to an empty store, signing up John Doe,
      and updating his name and password keeps three records with unique ids. */
  lemma DemoRepository()
    ensures var s1 := AddByList([], DemoUsers());
      var jd := User(2, "John Doe", "JD", "examplepass", None, None);
      var s2 := SignUp(s1, jd);
      var s3 := Update(s2, jd.(name := "JohnPork", password := "amacallinbruh"));
      && s1 == DemoUsers()
      && s2 == DemoUsers() + [jd]
      && s3 == DemoUsers() + [jd.(name := "JohnPork", password := "amacallinbruh")]
      && UniqueIds(s3)
      && GetByLogin(s3, "JD") == Some(jd.(name := "JohnPork", password := "amacallinbruh"))
  {
    var us := DemoUsers();
    DemoAdded();
    var jd := User(2, "John Doe", "JD", "examplepass", None, None);
    assert !HasId(us, 2);
    var s2 := us + [jd];
    assert s2[0].id == 0 && s2[1].id == 1 && s2[2] == jd;
    assert IdIndex(s2, 2) == 2;
    var s3 := Update(s2, jd.(name := "JohnPork", password := "amacallinbruh"));
    assert s3 == us + [jd.(name := "JohnPork", password := "amacallinbruh")];
    assert s3[0].login == "JankFank" && s3[1].login == "Boss" && s3[2].login == "JD";
    assert LoginIndex(s3, "JD") == 2;
  }
}

=== FILE: wrappers.dfy ===
/** Option and Result types shared by every module of the model. */
module Wrappers {

  /** A value that may be absent: Python's `None` versus a present value. */
  datatype Option<+T> = None | Some(value: T)

  /** The outcome of an operation that either succeeds with a value or raises. */
  datatype Result<+T, +E> = Success(value: T) | Failure(error: E)
}
